=== FILE: README.md ===
# Keycloak custom import: reconciliation model

This project models the reconciliation core of `CustomImportProviderImpl`. That class is a
Keycloak import provider. It reimports realms from a directory of JSON files, and it keeps
existing users together with their role mappings and group memberships. It does this even
though the realm's roles and groups are deleted and recreated with new ids.

The persistent store is abstracted to six tables:

- realms;
- roles `(id, name, clientId?, realm)`;
- groups `(id, name, parent?, realm)`;
- users `(id, username, realm)`;
- the two association tables `user_role_mapping` and `user_group_membership`. Both are
  sequences of `Link(user, target)` rows whose order carries no meaning. Their primary key
  is the pair (user, target), so no row may occur twice (`Schema.KeyUnique`).

The modules follow the steps of the import:

- `Discovery`: `getRealmsToImport`, `isMasterRealmExported` and the realm choice of
  `importModel`.
- `Schema`: the store, `getRealmByName`, the abstract effect of `removeRealm` (teardown) and
  the rebuild.
- `Snapshot`: `getRoles` / `getGroups`, which group a realm's records by bare name.
- `Remap`: `updateRoleMappings` / `updateGroupMemberships`. The updates are a left fold of
  bulk `update ... set target = new where target = old` rewrites. An update that would give
  a user the same role or group twice violates the key. The store then raises, and the
  realm's transaction rolls back (`RetargetChecked`, `ApplyPlanChecked`). Two same-name
  subgroups under different parents trigger this (`SameNameSubgroupsCollide`). The central theorem,
  `RemapIsSubstitution`, shows the following. When old ids are unique and the rebuild's ids
  are fresh, the fold equals one simultaneous substitution for any enumeration order of the
  before-snapshot. So the unspecified `HashMap` iteration order does not matter.
- `Sweep`: the two orphan-deletion statements.
- `Purge`: deletion of existing users named in the realm representation, with their rows.
- `UserImport`: the shard-file filter, the field-by-field reading of `parseRealmUsers`,
  and the create-if-absent filter of `importUsersInternal`. The reader stops at the
  `users` array or at the first unknown field. So a `realm` field after either of them is
  never checked. The users to create are chosen against the store before any is created,
  so a shard listing a new username twice breaks the (realm, username) key and rolls back.
- `Orchestrator`: `importRealmInternal` and `importRealm`, plus the end-to-end guarantee
  `ReimportPreservesAssignments`.

Rebuild (`RealmManager.importRealm`) is outside the code. It is a parameter: a `Rebuilt`
value whose rows are appended to the store. Its roles and groups carry ids that are fresh
(`Orchestrator.FreshRebuild`).

The after-snapshot is taken on the realm id the realm had before the import, as the code
does. If the rebuilt realm gets a different id, that snapshot is empty. The remap is then
skipped, and the sweep deletes every row that pointed at the old roles and groups.

Where the documented behaviour and the code disagree, the model follows the code. The
documentation says that a failing realm does not stop later realms. In the code the
exception leaves the `forEach` of `importModel` and aborts the remaining realms. Failures
of the rebuild are not modelled in any case.

## Model

Source paths are relative to the repository root.

| member | source | states |
|---|---|---|
| Discovery.RealmNameOf | src/main/kotlin/me/stroiker/keycloak/import/CustomImportProviderImpl.kt:157-159 | dropping the last 11 characters of a realm file name leaves the name that, followed by `-realm.json`, gives the file name back |
| Discovery.RealmNameRoundTrip | src/main/kotlin/me/stroiker/keycloak/import/CustomImportProviderImpl.kt:154-159 | every realm name gives a realm file, and reading that file's name back gives the realm name |
| Discovery.GetRealmsToImport | src/main/kotlin/me/stroiker/keycloak/import/CustomImportProviderImpl.kt:153-169 | a failed listing gives no names; otherwise the loop's result equals the reference order: the admin realm's copies first, then every other realm name in listing order |
| Discovery.RealmNamesSpec | src/main/kotlin/me/stroiker/keycloak/import/CustomImportProviderImpl.kt:154-159 | one name per file ending in `-realm.json`, and a name is discovered exactly when its realm file is listed |
| Discovery.AdminFirstSpec | src/main/kotlin/me/stroiker/keycloak/import/CustomImportProviderImpl.kt:161-166 | the discovered order is a permutation of the names, puts the admin realm at index 0 when present, and keeps the relative order of all other realms |
| Discovery.IsMasterRealmExported | src/main/kotlin/me/stroiker/keycloak/import/CustomImportProviderImpl.kt:45 | true exactly when the listing succeeded and holds the admin realm's file |
| Discovery.RealmsToProcess | src/main/kotlin/me/stroiker/keycloak/import/CustomImportProviderImpl.kt:49-57 | a configured realm is imported alone; otherwise the discovered realms are imported, in discovery order |
| Schema.FindRealm | src/main/kotlin/me/stroiker/keycloak/import/CustomImportProviderImpl.kt:174-177 | a found realm is in the store and has the requested name; nothing is found exactly when no realm has that name |
| Schema.Teardown | src/main/kotlin/me/stroiker/keycloak/import/CustomImportProviderImpl.kt:303-448 | removes the realm row, every role of the realm, and the realm's top-level groups with their direct subgroups; no other record is removed, and users and both association tables are untouched |
| Schema.DeepGroupSurvivesTeardown | src/main/kotlin/me/stroiker/keycloak/import/CustomImportProviderImpl.kt:384-429 | group deletion goes two levels deep, so a third-level group survives teardown |
| Snapshot.RealmRoleRefs | src/main/kotlin/me/stroiker/keycloak/import/CustomImportProviderImpl.kt:229-232 | the snapshot query returns exactly the projections of the roles whose realm is the given realm |
| Snapshot.RealmGroupRefs | src/main/kotlin/me/stroiker/keycloak/import/CustomImportProviderImpl.kt:240-243 | the snapshot query returns exactly the projections of the groups whose realm is the given realm |
| Snapshot.RealmRoleRefsConcat | src/main/kotlin/me/stroiker/keycloak/import/CustomImportProviderImpl.kt:229-232 | the realm's roles in a table made of two parts are those of the first part followed by those of the second |
| Snapshot.GroupBy | src/main/kotlin/me/stroiker/keycloak/import/CustomImportProviderImpl.kt:233-238 | the keys are exactly the names that occur; every bucket is non-empty; a record is in bucket k exactly when it is in the input and is named k; each bucket keeps input order |
| Snapshot.Names | src/main/kotlin/me/stroiker/keycloak/import/CustomImportProviderImpl.kt:256 | an enumeration of the snapshot's keys: each name that occurs appears exactly once |
| Snapshot.SnapshotRoles | src/main/kotlin/me/stroiker/keycloak/import/CustomImportProviderImpl.kt:229-238 | `getRoles`: the keys are exactly the names of the realm's roles; every role of the realm is in the bucket of its name, and every bucket entry is a role of the realm with that name, client roles included |
| Snapshot.SnapshotGroups | src/main/kotlin/me/stroiker/keycloak/import/CustomImportProviderImpl.kt:240-249 | `getGroups`: the keys are exactly the names of the realm's groups; every group of the realm is in the bucket of its name, and every bucket entry is a group of the realm with that name |
| Snapshot.GroupByEmpty | src/main/kotlin/me/stroiker/keycloak/import/CustomImportProviderImpl.kt:210-217 | the snapshot is empty exactly when the query found no record, which is when the remap guard skips the update |
| Remap.FindMatch | src/main/kotlin/me/stroiker/keycloak/import/CustomImportProviderImpl.kt:259-262 | the result is the first candidate in list order that has a different id and, for a client role, the same client; there is none exactly when no candidate qualifies |
| Remap.MatchOfSpec | src/main/kotlin/me/stroiker/keycloak/import/CustomImportProviderImpl.kt:256-263 | the new record chosen for an old one has the same name and a different id, and the same client when the old one is a client role; it is the first such record after the rebuild; there is none exactly when no such record exists |
| Remap.RealmRoleMayPassToClientRole | src/main/kotlin/me/stroiker/keycloak/import/CustomImportProviderImpl.kt:235-260 | buckets use the bare name, so a realm role's rows can move to a client role of the same name |
| Remap.GroupQualifies | src/main/kotlin/me/stroiker/keycloak/import/CustomImportProviderImpl.kt:283 | for groups the match condition is only that the id differs |
| Remap.RetargetCounts | src/main/kotlin/me/stroiker/keycloak/import/CustomImportProviderImpl.kt:265-268 | one bulk `update ... set target = new where target = old`, as computed when it goes through: each user's rows on the old target all move to the new target, none stays behind, rows on every other target keep their multiplicity, and an update from a target to itself changes nothing |
| Remap.RetargetKeyUnique | src/main/kotlin/me/stroiker/keycloak/import/CustomImportProviderImpl.kt:265-268 | on a table where no (user, target) pair occurs twice, the update keeps that key unique exactly when no user has rows on both the old and the new target |
| Remap.RetargetChecked | src/main/kotlin/me/stroiker/keycloak/import/CustomImportProviderImpl.kt:265-268 | the update as the store executes it: on a key-unique table it goes through, with the bulk update's result, exactly when that result keeps the key unique; otherwise it raises and names the update |
| Remap.ApplyPlanChecked | src/main/kotlin/me/stroiker/keycloak/import/CustomImportProviderImpl.kt:256-272 | the updates run in order and the first one that would duplicate a key raises; on a key-unique table the whole sequence goes through exactly when its final table is key-unique, and then yields that table |
| Remap.ApplyPlanKeepsDuplicate | src/main/kotlin/me/stroiker/keycloak/import/CustomImportProviderImpl.kt:256-272 | a row that occurs twice still occurs twice after any further updates, so a failed update cannot be undone by later ones |
| Remap.ApplyPlan | src/main/kotlin/me/stroiker/keycloak/import/CustomImportProviderImpl.kt:256-272 | a sequence of bulk updates keeps the row count and the user of every row |
| Remap.RemapIsSubstitution | src/main/kotlin/me/stroiker/keycloak/import/CustomImportProviderImpl.kt:251-293 | with unique old ids and fresh new ids, the table the fold of updates computes, over any key order covering the before-snapshot, maps each row to the record that corresponds to its old target, and nothing else changes; whether the store accepts that table is stated by UpdateLinksChecked |
| Remap.RemapLinks | src/main/kotlin/me/stroiker/keycloak/import/CustomImportProviderImpl.kt:251-293 | `updateRoleMappings` / `updateGroupMemberships` over full snapshots, as computed when every update goes through: the row count and users are kept; with unique old ids and fresh new ids, a row on an old id that finds a match now points at the match, and a row on any other id is unchanged |
| Remap.UpdateLinksChecked | src/main/kotlin/me/stroiker/keycloak/import/CustomImportProviderImpl.kt:251-293 | the remap as the store executes it: on a key-unique table it succeeds, yielding RemapLinks' table, exactly when that table is key-unique; otherwise the transaction raises |
| Remap.SameNameSubgroupsCollide | src/main/kotlin/me/stroiker/keycloak/import/CustomImportProviderImpl.kt:275-293 | a user in two subgroups named `admins` under different parents: after the rebuild both old groups match the same new group, so the second update would give the user that membership twice and the store raises |
| Remap.RemapOrderIrrelevant | src/main/kotlin/me/stroiker/keycloak/import/CustomImportProviderImpl.kt:256 | the result does not depend on the iteration order of the before-snapshot |
| Remap.RemapWithEmptyAfter | src/main/kotlin/me/stroiker/keycloak/import/CustomImportProviderImpl.kt:210-217 | an empty after-snapshot issues no update, so skipping the remap in that case loses nothing |
| Sweep.SweepOrphans | src/main/kotlin/me/stroiker/keycloak/import/CustomImportProviderImpl.kt:469-472 | every remaining row targets an existing id; a row on an existing id keeps its multiplicity, and every other row is gone |
| Sweep.SweepKeepsClean | src/main/kotlin/me/stroiker/keycloak/import/CustomImportProviderImpl.kt:295-301 | a table without orphans is left exactly as it was |
| Sweep.SweepIdempotent | src/main/kotlin/me/stroiker/keycloak/import/CustomImportProviderImpl.kt:218-221 | sweeping twice equals sweeping once |
| Sweep.SweepDropsRemovedRole | src/test/kotlin/me/stroiker/keycloak/import/CustomImportIntegrationTest.kt:122-126 | a mapping to a role missing from the new configuration disappears, and the other mapping stays |
| Purge.FirstUser | src/main/kotlin/me/stroiker/keycloak/import/CustomImportProviderImpl.kt:190-194 | a found user belongs to the realm and has the username; there is none exactly when the realm has no such user |
| Purge.RemoveUser | src/main/kotlin/me/stroiker/keycloak/import/CustomImportProviderImpl.kt:195-204 | removes the user and exactly that user's role-mapping and group-membership rows; realms, roles, groups and all other rows are untouched |
| Purge.PurgeDefaultUsers | src/main/kotlin/me/stroiker/keycloak/import/CustomImportProviderImpl.kt:187-206 | the purge never touches realms, roles or groups |
| Purge.PurgeUsersSpec | src/main/kotlin/me/stroiker/keycloak/import/CustomImportProviderImpl.kt:187-206 | a user survives exactly when it is not a user of the realm whose username the representation lists |
| Purge.PurgeLinksSpec | src/main/kotlin/me/stroiker/keycloak/import/CustomImportProviderImpl.kt:196-201 | the rows of purged users are gone, and every other row keeps its multiplicity |
| UserImport.IsUserShardName | src/main/kotlin/me/stroiker/keycloak/import/CustomImportProviderImpl.kt:121-122 | the shard file filter: the name is the realm name, `-users-`, at least one digit and `.json`, with nothing before or after |
| UserImport.ShardNameShape | src/main/kotlin/me/stroiker/keycloak/import/CustomImportProviderImpl.kt:121-122 | `<realm>-users-<digits>.json` matches; a trailing extension or an empty digit run does not |
| UserImport.ParseRealmUsers | src/main/kotlin/me/stroiker/keycloak/import/CustomImportProviderImpl.kt:91-117 | fields are read in file order: the shard fails exactly when a `realm` field naming another realm comes before any `users` field or unknown field, and the error names the expected realm and the realm that field gives; when a `users` field follows only matching `realm` fields its array is the result; any non-empty result is such an array |
| UserImport.RealmAfterUsersUnchecked | src/main/kotlin/me/stroiker/keycloak/import/CustomImportProviderImpl.kt:100-111 | reading ends after the `users` array, so a `realm` field placed after it is never checked and its users are imported into the expected realm |
| UserImport.UnknownFieldEndsReading | src/main/kotlin/me/stroiker/keycloak/import/CustomImportProviderImpl.kt:96-111 | a field other than `realm` or `users` ends the reading, so a shard starting with one yields no users and no realm check |
| UserImport.NewUsers | src/main/kotlin/me/stroiker/keycloak/import/CustomImportProviderImpl.kt:132-140 | a user is created exactly for each declared user whose username the realm does not hold yet |
| UserImport.NewUsersShared | src/main/kotlin/me/stroiker/keycloak/import/CustomImportProviderImpl.kt:132-140 | two users to create can share a username only when the shard lists that username twice |
| UserImport.AddedKeepUnique | src/main/kotlin/me/stroiker/keycloak/import/CustomImportProviderImpl.kt:132-140 | adding users of one realm whose usernames the realm lacks, no two alike, keeps usernames unique within each realm |
| UserImport.ImportShard | src/main/kotlin/me/stroiker/keycloak/import/CustomImportProviderImpl.kt:126-147 | a shard without users changes nothing; a shard with users fails exactly when the realm does not exist or two of the users to create share a username, and the latter error names a username the shard lists twice; on success existing users stay as a prefix, the new users follow, every other table is unchanged, and usernames stay unique within each realm |
| UserImport.ImportUsers | src/main/kotlin/me/stroiker/keycloak/import/CustomImportProviderImpl.kt:119-151 | structure and association tables are unchanged; existing users stay as a prefix; each added user belongs to the realm, had no namesake there, and is declared by a matching, well-formed shard; if some matching shard fails its realm check or has users for a realm that does not exist, the import raises; if it raises, some matching shard fails in that way or lists a username twice; without an error, every user of every matching shard has a namesake in the realm; unique usernames stay unique |
| UserImport.MismatchFailsFast | src/main/kotlin/me/stroiker/keycloak/import/CustomImportProviderImpl.kt:97-99 | a shard that opens with a `realm` field naming another realm stops the import before any of its users, or any later shard's, is created, and the error names both realms |
| UserImport.SingleShardCreatesMissingUsers | src/main/kotlin/me/stroiker/keycloak/import/CustomImportProviderImpl.kt:125-140 | one well-formed shard for an existing realm appends exactly the declared users whose username is absent and reports no error, unless two of them share a username, in which case it raises and creates nothing |
| Orchestrator.RemapIfAnyChecked | src/main/kotlin/me/stroiker/keycloak/import/CustomImportProviderImpl.kt:210-217 | the guarded remap as the store executes it: an empty after-snapshot leaves the table as it is; on a key-unique table the remap succeeds, yielding the guarded remap's table, exactly when that table is key-unique |
| Orchestrator.RemapRolesChecked | src/main/kotlin/me/stroiker/keycloak/import/CustomImportProviderImpl.kt:210-213 | the role-mapping remap of a reimport succeeds, on key-unique staged mappings, exactly when the remapped table is key-unique, and then yields it |
| Orchestrator.RemapGroupsChecked | src/main/kotlin/me/stroiker/keycloak/import/CustomImportProviderImpl.kt:214-217 | the group-membership remap of a reimport succeeds, on key-unique staged memberships, exactly when the remapped table is key-unique, and then yields it |
| Orchestrator.Reconcile | src/main/kotlin/me/stroiker/keycloak/import/CustomImportProviderImpl.kt:182-221 | the reimport fails on the first remap update that would duplicate a (user, target) row; with key-unique staged tables it succeeds exactly when neither remapped table holds a row twice; after a successful reimport the tables are the staged ones, remapped and swept, and no role mapping or group membership points at a record that does not exist |
| Orchestrator.ImportRealmInternal | src/main/kotlin/me/stroiker/keycloak/import/CustomImportProviderImpl.kt:171-227 | only the reimport of an existing realm under a strategy other than IGNORE_EXISTING can fail; an existing realm under IGNORE_EXISTING reports false and changes nothing; every other successful path reports true; an absent realm is only rebuilt; a successful reimport leaves no orphans |
| Orchestrator.OverwriteReconciles | src/main/kotlin/me/stroiker/keycloak/import/CustomImportProviderImpl.kt:177-226 | overwriting an existing realm succeeds exactly when the reconciliation does, and then commits the reconciled store |
| Orchestrator.ImportRealm | src/main/kotlin/me/stroiker/keycloak/import/CustomImportProviderImpl.kt:59-89 | a failed structural import rolls back, raises and imports no user; otherwise the user import runs on the store the structural import leaves, whenever users are requested, whether or not the structural import happened, and it raises when a matching shard fails; without users requested, the structural result stands with no error; unique usernames stay unique |
| Orchestrator.SkippedRealmStillImportsUsers | src/main/kotlin/me/stroiker/keycloak/import/CustomImportProviderImpl.kt:63-86 | a skipped realm still gets its user shards imported, on the untouched store, with the user import's outcome |
| Orchestrator.SurvivesToRebuild | src/main/kotlin/me/stroiker/keycloak/import/CustomImportProviderImpl.kt:186-208 | teardown, purge and rebuild keep every user the purge spares, and all of that user's rows |
| Orchestrator.StagedRoles | src/main/kotlin/me/stroiker/keycloak/import/CustomImportProviderImpl.kt:182-210 | after teardown and rebuild, the realm's role snapshot is exactly the rebuilt roles; other realms' roles remain; no role carries a replaced id |
| Orchestrator.StagedGroups | src/main/kotlin/me/stroiker/keycloak/import/CustomImportProviderImpl.kt:183-214 | the same for groups, when every group of the realm is at most two levels deep |
| Orchestrator.RemapThenSweep | src/main/kotlin/me/stroiker/keycloak/import/CustomImportProviderImpl.kt:210-221 | after the guarded remap, as computed when every update goes through (RemapIfAnyChecked says when the store accepts it), and the sweep, a row on a matched old id survives, pointing at the match; a row on an id that is neither old nor missing survives unchanged |
| Orchestrator.SweptRoles | src/main/kotlin/me/stroiker/keycloak/import/CustomImportProviderImpl.kt:182-221 | in the swept role-mapping table, a spared user's mapping to a replaced role that has a successor points at the successor; mappings into other realms' roles stay; no mapping points at a replaced role |
| Orchestrator.SweptGroups | src/main/kotlin/me/stroiker/keycloak/import/CustomImportProviderImpl.kt:182-221 | the same for the swept group-membership table, when every group of the realm is at most two levels deep |
| Orchestrator.ReconcileRoles | src/main/kotlin/me/stroiker/keycloak/import/CustomImportProviderImpl.kt:182-221 | after a successful reimport a spared user's mapping to a replaced role has moved to its successor; mappings to other realms' roles stay; no mapping points at a replaced role |
| Orchestrator.ReconcileGroups | src/main/kotlin/me/stroiker/keycloak/import/CustomImportProviderImpl.kt:182-221 | the same for group memberships after a successful reimport, when every group of the realm is at most two levels deep |
| Orchestrator.ReimportSucceedsIff | src/main/kotlin/me/stroiker/keycloak/import/CustomImportProviderImpl.kt:177-221 | overwriting an existing realm whose staged association tables are key-unique succeeds exactly when neither remapped table would hold the same row twice |
| Orchestrator.ReimportPreservesAssignments | src/test/kotlin/me/stroiker/keycloak/import/CustomImportIntegrationTest.kt:111-135 | when every group of the realm is at most two levels deep and the overwrite of an existing realm succeeds, it keeps the users the purge spares, moves their mappings and memberships to the same-name successors, keeps the ones into other realms, and leaves nothing on a replaced id |

## Left out

- Persistence and transaction mechanics are not modelled: pessimistic locks,
  `find`/`refresh`/`flush`/`clear`, and `runJobInTransaction`. Each step is one atomic
  function on the store.
- Named queries defined inside Keycloak are modelled only by their names' meaning, because
  their text is not part of this model.
- The step-by-step delete sequence of `removeRealm` and `removeRole` is reduced to its effect
  on the six modelled tables. Clients, client scopes, default groups, composite-role and
  group-role tables are not modelled.
- `RealmManager.importRealm` is a parameter (`Rebuilt`) whose role and group ids are assumed
  fresh. Its own failures are not modelled.
- `setupClientServiceAccountsAndAuthorizationOnImport` and the `ALLOW_CREATE_POLICY`
  attribute are foreign calls and are left out.
- `RepresentationToModel.createUser` is reduced to adding `User(id, username, realm)`. The
  user's credentials, attributes, roles and groups from the representation are not modelled.
- UserImport.ImportShard: takes each user's id from the representation as given. A declared
  id that another user already carries would break the users table's primary key. That
  failure is not modelled, because the source leaves id assignment to Keycloak.
- UserImport.ImportUsers: the error is characterized in both directions only for shards
  that list no username twice. Whether a shard that does list one twice fails depends on
  the users that earlier shards created, so for those shards only "it may fail" is stated.
- Orchestrator.ImportRealm: states the user import's failure condition with the same
  restriction as `ImportUsers`, for the same reason.
- Publication of `ClientRemovedEvent` and `RealmRemovedEvent` is left out. It has no effect
  on the modelled tables.
- File I/O and Jackson streaming are left out. A realm file is its name, and a user shard is
  its sequence of top-level fields: `realm` with a string, `users` with an array of user
  objects, or any other field. Malformed JSON, a `realm` value that is not a string and a
  `users` value that is not an array are not modelled.
- The listing order of `File.listFiles` is taken as the given sequence.
- Errors thrown by black boxes are not modelled. The loop of `importModel` over the realms
  is not modelled either. In the source, an error of one realm, whether a modelled one
  (`RealmOutcome.error`) or a black box's, leaves that loop and aborts the remaining realms.
- The exception messages are not modelled. A modelled error names the update that hit the
  key, the realms of a failed realm check, the missing realm, or the repeated username.
- Logging is left out.
- `CustomImportProviderFactoryImpl` is left out. It is a configuration lookup that passes
  four arguments to a five-parameter constructor.
- The directory-existence check of the constructor is left out, because it is I/O.
- The provider's `strategy`, `realmName` and `withUsers` fields become parameters.
- UserImport.IsUserShardName: reads the realm name literally, whereas the source puts it
  into a regular expression unescaped, so a realm name with metacharacters such as `.`
  matches more file names in the source.
- Orchestrator.ReconcileGroups: is proved only for realms whose groups are at most two
  levels deep. Teardown deletes only two levels, so deeper groups survive with their old
  ids, and the remap may then pick them.
- Orchestrator.Reconcile: says when the reimport succeeds only for staged association
  tables that are already key-unique. The key guarantees this for the rows the store held,
  and the rebuild's own rows are part of the opaque rebuild. `ReimportSucceedsIff` carries
  the same restriction.
- Orchestrator.ReimportPreservesAssignments: states what a successful overwrite keeps. When
  an update hits the key, the transaction rolls back, and `ImportRealm` then reports the
  store as it was before the realm's import. Beyond that, it assumes that every group of
  the realm is at most two levels deep, for the reason given for `ReconcileGroups`. It also assumes unique
  role, group and user ids, unique usernames per realm, and fresh rebuilt ids. The source
  relies on the database and on Keycloak for these.
- Group memberships are matched by bare group name, because the snapshot key ignores the
  parent. A membership can therefore move to a group of the same name under another parent,
  just as a realm role's mappings can move to a client role of the same name. When two old
  records reach the same new one for one user, the store refuses the second update
  (`Remap.SameNameSubgroupsCollide`).
- Schema.Rebuild: appends the rebuilt rows as given. The users that the rebuild recreates
  from the representation are part of the `Rebuilt` value.

=== FILE: discovery.dfy ===
/**
 * Realm discovery (`getRealmsToImport`): realm names come from the files named
 * `<realm>-realm.json`, and the administrative realm is moved to the front so it is
 * imported before the realms that may depend on it.
 */
module Discovery {
  import opened Wrappers
  import opened Seqs

  const RealmFileSuffix: string := "-realm.json"

  predicate EndsWith(s: string, suffix: string) {
    |suffix| <= |s| && s[|s| - |suffix|..] == suffix
  }

  predicate IsRealmFile(fileName: string) {
    EndsWith(fileName, RealmFileSuffix)
  }

  /** `substring(0, length - 11)`: the file name without its eleven-character suffix. */
  function RealmNameOf(fileName: string): (r: string)
    requires IsRealmFile(fileName)
    ensures r + RealmFileSuffix == fileName
  {
    assert |RealmFileSuffix| == 11;
    assert fileName == fileName[..|fileName| - 11] + fileName[|fileName| - 11..];
    fileName[..|fileName| - 11]
  }

  /** Naming a realm file and reading its name back gives the realm name. */
  lemma RealmNameRoundTrip(name: string)
    ensures IsRealmFile(name + RealmFileSuffix)
    ensures RealmNameOf(name + RealmFileSuffix) == name
  {
    var f := name + RealmFileSuffix;
    assert f[|f| - |RealmFileSuffix|..] == RealmFileSuffix;
    assert f[..|name|] == name;
  }

  /** The listing filter `name.endsWith("-realm.json")`, in listing order. */
  function RealmFiles(listing: seq<string>): (r: seq<string>)
    ensures forall f :: f in r ==> IsRealmFile(f)
    ensures |r| <= |listing|
  {
    if |listing| == 0 then []
    else (if IsRealmFile(listing[0]) then [listing[0]] else []) + RealmFiles(listing[1..])
  }

  function StripAll(files: seq<string>): (r: seq<string>)
    requires forall f :: f in files ==> IsRealmFile(f)
    ensures |r| == |files|
    ensures forall i :: 0 <= i < |files| ==> r[i] == RealmNameOf(files[i])
  {
    if |files| == 0 then [] else [RealmNameOf(files[0])] + StripAll(files[1..])
  }

  /** One realm name per realm file of the listing, in listing order. */
  function RealmNames(listing: seq<string>): seq<string> {
    StripAll(RealmFiles(listing))
  }

  function Only(x: string, s: seq<string>): (r: seq<string>)
    ensures forall y :: y in r ==> y == x
  {
    if |s| == 0 then [] else (if s[0] == x then [x] else []) + Only(x, s[1..])
  }

  function Without(x: string, s: seq<string>): (r: seq<string>)
    ensures x !in r
  {
    if |s| == 0 then [] else (if s[0] != x then [s[0]] else []) + Without(x, s[1..])
  }

  /** The intended order: every occurrence of the admin realm first, then the others in their original order. */
  function AdminFirst(admin: string, names: seq<string>): seq<string> {
    Only(admin, names) + Without(admin, names)
  }

  lemma {:induction false} OnlySnoc(x: string, s: seq<string>, y: string)
    ensures Only(x, s + [y]) == Only(x, s) + (if y == x then [x] else [])
  {
    if |s| == 0 {
      assert s + [y] == [y];
      assert [y][1..] == [];
    } else {
      var h := if s[0] == x then [x] else [];
      assert (s + [y])[0] == s[0] && (s + [y])[1..] == s[1..] + [y];
      OnlySnoc(x, s[1..], y);
      assert Only(x, s + [y]) == h + (Only(x, s[1..]) + (if y == x then [x] else []));
      assert Only(x, s) == h + Only(x, s[1..]);
    }
  }

  lemma {:induction false} WithoutSnoc(x: string, s: seq<string>, y: string)
    ensures Without(x, s + [y]) == Without(x, s) + (if y != x then [y] else [])
  {
    if |s| == 0 {
      assert s + [y] == [y];
      assert [y][1..] == [];
    } else {
      var h := if s[0] != x then [s[0]] else [];
      assert (s + [y])[0] == s[0] && (s + [y])[1..] == s[1..] + [y];
      WithoutSnoc(x, s[1..], y);
      assert Without(x, s + [y]) == h + (Without(x, s[1..]) + (if y != x then [y] else []));
      assert Without(x, s) == h + Without(x, s[1..]);
    }
  }

  /** A sequence of copies of one value reads the same with one more copy at either end. */
  lemma {:induction false} CopiesCommute(x: string, s: seq<string>)
    requires forall y :: y in s ==> y == x
    ensures [x] + s == s + [x]
  {
    if |s| > 0 {
      assert s[0] in s;
      assert forall y :: y in s[1..] ==> y in s;
      CopiesCommute(x, s[1..]);
      assert s == [x] + s[1..];
    }
  }

  /** One more name: the admin realm goes to the front, any other realm to the back. */
  lemma AdminFirstStep(admin: string, prev: seq<string>, name: string)
    ensures AdminFirst(admin, prev + [name]) ==
      if name == admin then [name] + AdminFirst(admin, prev) else AdminFirst(admin, prev) + [name]
  {
    OnlySnoc(admin, prev, name);
    WithoutSnoc(admin, prev, name);
    if name == admin {
      CopiesCommute(admin, Only(admin, prev));
    }
  }

  lemma StripAllSnoc(files: seq<string>, i: nat)
    requires i < |files| && forall f :: f in files ==> IsRealmFile(f)
    ensures StripAll(files[..i + 1]) == StripAll(files[..i]) + [RealmNameOf(files[i])]
  {
    assert forall f :: f in files[..i + 1] ==> f in files;
    assert forall f :: f in files[..i] ==> f in files;
  }

  /**
   * `getRealmsToImport`: a failed listing gives no realms; otherwise each realm file
   * contributes its name, appended, or inserted at index 0 when it is the admin realm.
   */
  method GetRealmsToImport(listing: Option<seq<string>>, admin: string) returns (names: seq<string>)
    ensures listing.None? ==> names == []
    ensures listing.Some? ==> names == AdminFirst(admin, RealmNames(listing.value))
  {
    match listing
    case None =>
      names := [];
    case Some(files) =>
      var realmFiles := RealmFiles(files);
      names := [];
      var i := 0;
      while i < |realmFiles|
        invariant 0 <= i <= |realmFiles|
        invariant names == AdminFirst(admin, StripAll(realmFiles[..i]))
      {
        var fileName := realmFiles[i];
        assert fileName in realmFiles && |RealmFileSuffix| == 11;
        var realmName := fileName[..|fileName| - 11];
        assert realmName == RealmNameOf(fileName);
        StripAllSnoc(realmFiles, i);
        AdminFirstStep(admin, StripAll(realmFiles[..i]), realmName);
        if admin == realmName {
          names := [realmName] + names;
        } else {
          names := names + [realmName];
        }
        i := i + 1;
      }
      assert realmFiles[..i] == realmFiles;
  }

  /** One step of the split: the head goes to exactly one side. */
  lemma OnlyWithoutHead(x: string, s: seq<string>)
    requires |s| > 0
    ensures multiset(Only(x, s)) + multiset(Without(x, s))
      == multiset{s[0]} + multiset(Only(x, s[1..])) + multiset(Without(x, s[1..]))
  {
    var o, w := Only(x, s[1..]), Without(x, s[1..]);
    if s[0] == x {
      assert Only(x, s) == [x] + o && Without(x, s) == w;
    } else {
      assert Only(x, s) == o && Without(x, s) == [s[0]] + w;
    }
  }

  lemma UnionShift(m: multiset<string>, a: multiset<string>, b: multiset<string>, c: multiset<string>)
    requires a + b == c
    ensures m + a + b == m + c
  {
  }

  lemma {:induction false} OnlyWithoutCount(x: string, s: seq<string>)
    ensures multiset(Only(x, s)) + multiset(Without(x, s)) == multiset(s)
  {
    if |s| > 0 {
      var rest := s[1..];
      OnlyWithoutCount(x, rest);
      OnlyWithoutHead(x, s);
      UnionShift(multiset{s[0]}, multiset(Only(x, rest)), multiset(Without(x, rest)), multiset(rest));
      MultisetCons(s);
    }
  }

  lemma {:induction false} OnlyNonEmpty(x: string, s: seq<string>)
    requires x in s
    ensures |Only(x, s)| > 0
  {
    if s[0] != x {
      assert x in s[1..];
      OnlyNonEmpty(x, s[1..]);
    }
  }

  /**
   * The discovered order holds the same names with the same multiplicities, puts the
   * admin realm first when it is present, and keeps every other realm in listing order.
   */
  lemma AdminFirstSpec(admin: string, names: seq<string>)
    ensures multiset(AdminFirst(admin, names)) == multiset(names)
    ensures |AdminFirst(admin, names)| == |names|
    ensures admin in names ==> AdminFirst(admin, names)[0] == admin
    ensures Without(admin, AdminFirst(admin, names)) == Without(admin, names)
  {
    OnlyWithoutCount(admin, names);
    assert multiset(AdminFirst(admin, names)) == multiset(Only(admin, names)) + multiset(Without(admin, names));
    assert |multiset(AdminFirst(admin, names))| == |multiset(names)|;
    if admin in names {
      OnlyNonEmpty(admin, names);
      assert Only(admin, names)[0] in Only(admin, names);
    }
    WithoutOfConcat(admin, Only(admin, names), Without(admin, names));
    WithoutOfOnly(admin, names);
    WithoutOfWithout(admin, names);
  }

  lemma {:induction false} WithoutOfConcat(x: string, a: seq<string>, b: seq<string>)
    ensures Without(x, a + b) == Without(x, a) + Without(x, b)
  {
    if |a| == 0 {
      assert a + b == b;
    } else {
      var h := if a[0] != x then [a[0]] else [];
      assert (a + b)[0] == a[0] && (a + b)[1..] == a[1..] + b;
      WithoutOfConcat(x, a[1..], b);
      assert Without(x, a + b) == h + (Without(x, a[1..]) + Without(x, b));
      assert Without(x, a) == h + Without(x, a[1..]);
    }
  }

  lemma {:induction false} WithoutOfOnly(x: string, s: seq<string>)
    ensures Without(x, Only(x, s)) == []
  {
    if |s| > 0 {
      var rest := Only(x, s[1..]);
      WithoutOfOnly(x, s[1..]);
      if s[0] == x {
        assert Only(x, s) == [x] + rest;
        assert ([x] + rest)[1..] == rest;
        assert Without(x, [x] + rest) == [] + Without(x, rest);
      } else {
        assert Only(x, s) == [] + rest;
        assert [] + rest == rest;
      }
    }
  }

  lemma {:induction false} WithoutOfWithout(x: string, s: seq<string>)
    ensures Without(x, Without(x, s)) == Without(x, s)
  {
    if |s| > 0 {
      var rest := Without(x, s[1..]);
      WithoutOfWithout(x, s[1..]);
      if s[0] != x {
        assert Without(x, s) == [s[0]] + rest;
        assert ([s[0]] + rest)[1..] == rest;
        assert Without(x, [s[0]] + rest) == [s[0]] + Without(x, rest);
      } else {
        assert Without(x, s) == [] + rest;
        assert [] + rest == rest;
      }
    }
  }

  /** Each realm file of the listing contributes exactly one name, the file name minus its suffix. */
  lemma {:induction false} RealmNamesSpec(listing: seq<string>)
    ensures |RealmNames(listing)| == |RealmFiles(listing)|
    ensures forall n :: n in RealmNames(listing) <==> n + RealmFileSuffix in listing
  {
    if |listing| > 0 {
      RealmNamesSpec(listing[1..]);
      var f := listing[0];
      var head := if IsRealmFile(f) then [f] else [];
      assert RealmFiles(listing) == head + RealmFiles(listing[1..]);
      assert StripAll(RealmFiles(listing)) == StripAll(head) + StripAll(RealmFiles(listing[1..])) by {
        StripAllConcat(head, RealmFiles(listing[1..]));
      }
      forall n ensures n in RealmNames(listing) <==> n + RealmFileSuffix in listing {
        assert n + RealmFileSuffix in listing <==> n + RealmFileSuffix == f || n + RealmFileSuffix in listing[1..];
        RealmNameRoundTrip(n);
        if IsRealmFile(f) {
          assert StripAll(head) == [RealmNameOf(f)];
          assert n == RealmNameOf(f) <==> n + RealmFileSuffix == f;
        }
      }
    }
  }

  lemma {:induction false} StripAllConcat(a: seq<string>, b: seq<string>)
    requires forall f :: f in a + b ==> IsRealmFile(f)
    ensures StripAll(a + b) == StripAll(a) + StripAll(b)
  {
    if |a| == 0 {
      assert a + b == b;
    } else {
      assert (a + b)[1..] == a[1..] + b;
      StripAllConcat(a[1..], b);
    }
  }

  /** `isMasterRealmExported`: whether the listing holds the admin realm's file. */
  method IsMasterRealmExported(listing: Option<seq<string>>, admin: string) returns (b: bool)
    ensures b <==> listing.Some? && admin + RealmFileSuffix in listing.value
  {
    var names := GetRealmsToImport(listing, admin);
    b := admin in names;
    if listing.Some? {
      var ns := RealmNames(listing.value);
      AdminFirstSpec(admin, ns);
      RealmNamesSpec(listing.value);
      assert admin in names <==> admin in multiset(names);
      assert admin in ns <==> admin in multiset(ns);
    }
  }

  /** `importModel`: the configured realm alone, or every discovered realm. */
  method RealmsToProcess(configured: Option<string>, listing: Option<seq<string>>, admin: string) returns (names: seq<string>)
    ensures configured.Some? ==> names == [configured.value]
    ensures configured.None? && listing.None? ==> names == []
    ensures configured.None? && listing.Some? ==> names == AdminFirst(admin, RealmNames(listing.value))
  {
    if configured.Some? {
      names := [configured.value];
    } else {
      names := GetRealmsToImport(listing, admin);
    }
  }
}

=== FILE: orchestrator.dfy ===
/**
 * The per-realm import (`importRealmInternal`, `importRealm`): strategy gating, then
 * snapshot, teardown, default-user purge, rebuild, remap and orphan sweep.
 */
module Orchestrator {
  import opened Wrappers
  import opened Schema
  import opened Snapshot
  import opened Remap
  import opened Sweep
  import opened Purge
  import UserImport

  datatype Strategy = IgnoreExisting | OverwriteExisting

  /** What the reconciliation reads of a realm representation: the realm's name and its users' usernames. */
  datatype RealmRep = RealmRep(realm: string, usernames: seq<string>)

  datatype Imported = Imported(imported: bool, store: Store)

  /** The store after teardown, default-user purge and rebuild, before any remap. */
  function Staged(s: Store, realmId: Id, usernames: seq<string>, b: Rebuilt): Store {
    Rebuild(PurgeDefaultUsers(Teardown(s, realmId), realmId, usernames), b)
  }

  /** The remap guard of `importRealmInternal`: a table is rewritten only when the post-rebuild snapshot is non-empty. */
  function RemapIfAny(rows: seq<Link>, before: map<string, seq<Ref>>, after: map<string, seq<Ref>>, order: seq<string>): seq<Link> {
    if |after| == 0 then rows else UpdateLinks(rows, before, after, order)
  }

  /** The guarded remap as the store executes it: the first update that would duplicate a key raises. */
  function RemapIfAnyChecked(rows: seq<Link>, before: map<string, seq<Ref>>, after: map<string, seq<Ref>>, order: seq<string>): (r: Result<seq<Link>, Rewrite>)
    ensures r.Success? ==> r.value == RemapIfAny(rows, before, after, order)
    ensures KeyUnique(rows) ==> (r.Success? <==> KeyUnique(RemapIfAny(rows, before, after, order)))
  {
    if |after| == 0 then Success(rows) else UpdateLinksChecked(rows, before, after, order)
  }

  /**
   * The role-mapping table after the guarded remap and before the sweep. The
   * before-snapshot's keys are visited in the order of each name's last occurrence;
   * under fresh ids Remap.RemapOrderIrrelevant shows that every order covering them
   * gives the same table.
   */
  function RemappedRoles(s: Store, realmId: Id, usernames: seq<string>, b: Rebuilt): seq<Link> {
    var s3 := Staged(s, realmId, usernames, b);
    RemapIfAny(s3.roleMappings, SnapshotRoles(s, realmId), SnapshotRoles(s3, realmId), Names(RealmRoleRefs(s.roles, realmId)))
  }

  /** The group-membership table after the guarded remap and before the sweep. */
  function RemappedGroups(s: Store, realmId: Id, usernames: seq<string>, b: Rebuilt): seq<Link> {
    var s3 := Staged(s, realmId, usernames, b);
    RemapIfAny(s3.groupMemberships, SnapshotGroups(s, realmId), SnapshotGroups(s3, realmId), Names(RealmGroupRefs(s.groups, realmId)))
  }

  /** The role-mapping remap as the store executes it. */
  function RemapRolesChecked(s: Store, realmId: Id, usernames: seq<string>, b: Rebuilt): (r: Result<seq<Link>, Rewrite>)
    ensures r.Success? ==> r.value == RemappedRoles(s, realmId, usernames, b)
    ensures KeyUnique(Staged(s, realmId, usernames, b).roleMappings) ==>
      (r.Success? <==> KeyUnique(RemappedRoles(s, realmId, usernames, b)))
  {
    var s3 := Staged(s, realmId, usernames, b);
    RemapIfAnyChecked(s3.roleMappings, SnapshotRoles(s, realmId), SnapshotRoles(s3, realmId), Names(RealmRoleRefs(s.roles, realmId)))
  }

  /** The group-membership remap as the store executes it. */
  function RemapGroupsChecked(s: Store, realmId: Id, usernames: seq<string>, b: Rebuilt): (r: Result<seq<Link>, Rewrite>)
    ensures r.Success? ==> r.value == RemappedGroups(s, realmId, usernames, b)
    ensures KeyUnique(Staged(s, realmId, usernames, b).groupMemberships) ==>
      (r.Success? <==> KeyUnique(RemappedGroups(s, realmId, usernames, b)))
  {
    var s3 := Staged(s, realmId, usernames, b);
    RemapIfAnyChecked(s3.groupMemberships, SnapshotGroups(s, realmId), SnapshotGroups(s3, realmId), Names(RealmGroupRefs(s.groups, realmId)))
  }

  /**
   * Reimport of an existing realm: snapshot, teardown, purge, rebuild, remap of role
   * mappings then group memberships (each guarded), and the global orphan sweep. The
   * transaction fails at the first update that would give a user the same role or
   * group twice; on key-unique tables that happens exactly when a remapped table holds
   * a duplicate row. After a successful reimport no association row points at a role
   * or group that does not exist.
   */
  function Reconcile(s: Store, realmId: Id, usernames: seq<string>, b: Rebuilt): (r: Result<Store, Rewrite>)
    ensures r.Success? ==> forall l :: l in r.value.roleMappings ==> l.targetId in RoleIds(r.value.roles)
    ensures r.Success? ==> forall l :: l in r.value.groupMemberships ==> l.targetId in GroupIds(r.value.groups)
    ensures r.Success? ==>
      var s3 := Staged(s, realmId, usernames, b);
      && r.value.realms == s3.realms && r.value.roles == s3.roles && r.value.groups == s3.groups && r.value.users == s3.users
      && r.value.roleMappings == SweepOrphans(RemappedRoles(s, realmId, usernames, b), RoleIds(r.value.roles))
      && r.value.groupMemberships == SweepOrphans(RemappedGroups(s, realmId, usernames, b), GroupIds(r.value.groups))
    ensures var s3 := Staged(s, realmId, usernames, b);
      KeyUnique(s3.roleMappings) && KeyUnique(s3.groupMemberships) ==>
        (r.Success? <==> KeyUnique(RemappedRoles(s, realmId, usernames, b)) && KeyUnique(RemappedGroups(s, realmId, usernames, b)))
  {
    var s3 := Staged(s, realmId, usernames, b);
    match RemapRolesChecked(s, realmId, usernames, b)
    case Failure(w) => Failure(w)
    case Success(roleMappings) =>
      match RemapGroupsChecked(s, realmId, usernames, b)
      case Failure(w) => Failure(w)
      case Success(groupMemberships) =>
        Success(s3.(roleMappings := SweepOrphans(roleMappings, RoleIds(s3.roles)),
                    groupMemberships := SweepOrphans(groupMemberships, GroupIds(s3.groups))))
  }

  /**
   * `importRealmInternal`: an existing realm under IGNORE_EXISTING is left alone and
   * reported as not imported; an existing realm under any other strategy is
   * reconciled, which may fail on a duplicate key; an absent realm is rebuilt directly.
   * Every successful path but the skip reports true.
   */
  function ImportRealmInternal(s: Store, rep: RealmRep, strategy: Strategy, b: Rebuilt): (r: Result<Imported, Rewrite>)
    ensures r.Failure? ==> FindRealm(s.realms, rep.realm).Some? && strategy != IgnoreExisting
    ensures r.Success? ==> (r.value.imported <==> !(FindRealm(s.realms, rep.realm).Some? && strategy == IgnoreExisting))
    ensures r.Success? && !r.value.imported ==> r.value.store == s
    ensures FindRealm(s.realms, rep.realm).None? ==> r == Success(Imported(true, Rebuild(s, b)))
    ensures FindRealm(s.realms, rep.realm).Some? && r.Success? && r.value.imported ==>
      && (forall l :: l in r.value.store.roleMappings ==> l.targetId in RoleIds(r.value.store.roles))
      && (forall l :: l in r.value.store.groupMemberships ==> l.targetId in GroupIds(r.value.store.groups))
  {
    match FindRealm(s.realms, rep.realm)
    case None => Success(Imported(true, Rebuild(s, b)))
    case Some(realm) =>
      if strategy == IgnoreExisting then Success(Imported(false, s))
      else match Reconcile(s, realm.id, rep.usernames, b)
        case Failure(w) => Failure(w)
        case Success(s') => Success(Imported(true, s'))
  }

  /** Why a realm's import raised: a remap update hit the association key, or a user shard failed. */
  datatype RealmError = DuplicateKey(update: Rewrite) | UsersFailed(cause: UserImport.ImportError)

  /** The store as committed by a realm's import, and the error that stopped it, if any. */
  datatype RealmOutcome = RealmOutcome(store: Store, error: Option<RealmError>)

  function FromUsers(o: UserImport.Outcome): (r: RealmOutcome)
    ensures r.store == o.store && (r.error.Some? <==> o.error.Some?)
  {
    RealmOutcome(o.store, match o.error case None => None case Some(e) => Some(UsersFailed(e)))
  }

  /**
   * `importRealm`: the structural import, then (outside the model) authorization setup
   * when it imported, then the user import whenever users are requested, even when
   * the structural import was skipped. A failed structural import rolls its transaction
   * back and raises before any user is imported.
   */
  function ImportRealm(s: Store, realmName: string, rep: RealmRep, strategy: Strategy, b: Rebuilt,
                       withUsers: bool, files: seq<UserImport.ShardFile>): (r: RealmOutcome)
    ensures ImportRealmInternal(s, rep, strategy, b).Failure? ==>
      r == RealmOutcome(s, Some(DuplicateKey(ImportRealmInternal(s, rep, strategy, b).error)))
    ensures ImportRealmInternal(s, rep, strategy, b).Success? ==>
      var st := ImportRealmInternal(s, rep, strategy, b).value.store;
      && r.store.realms == st.realms && r.store.roles == st.roles && r.store.groups == st.groups
      && r.store.roleMappings == st.roleMappings && r.store.groupMemberships == st.groupMemberships
      && |st.users| <= |r.store.users| && r.store.users[..|st.users|] == st.users
      && (!withUsers ==> r == RealmOutcome(st, None))
      && (withUsers ==> r == FromUsers(UserImport.ImportUsers(st, realmName, files)))
      && (withUsers && (exists f :: f in files && UserImport.ShardFails(st.realms, realmName, f)) ==> r.error.Some?)
      && (withUsers && r.error.Some? ==>
            exists f :: f in files && (UserImport.ShardFails(st.realms, realmName, f) || UserImport.RepeatsIn(f, realmName)))
      && (UniqueUsernames(st.users) ==> UniqueUsernames(r.store.users))
  {
    match ImportRealmInternal(s, rep, strategy, b)
    case Failure(w) => RealmOutcome(s, Some(DuplicateKey(w)))
    case Success(structural) =>
      if withUsers then FromUsers(UserImport.ImportUsers(structural.store, realmName, files))
      else RealmOutcome(structural.store, None)
  }

  /** A realm skipped under IGNORE_EXISTING keeps its structure, yet its user shards are still imported. */
  lemma SkippedRealmStillImportsUsers(s: Store, realmName: string, rep: RealmRep, b: Rebuilt, files: seq<UserImport.ShardFile>)
    requires FindRealm(s.realms, rep.realm).Some?
    ensures ImportRealm(s, realmName, rep, IgnoreExisting, b, true, files) == FromUsers(UserImport.ImportUsers(s, realmName, files))
  {
  }

  // ---------------------------------------------------------------------------
  // What survives a reimport.

  predicate WellFormed(s: Store) {
    && UniqueRoleIds(s.roles) && UniqueGroupIds(s.groups)
    && UniqueUserIds(s.users) && UniqueUsernames(s.users)
  }

  /** The rebuild's contract: every role and group it creates has an id no existing row carries. */
  predicate FreshRebuild(s: Store, b: Rebuilt) {
    && (forall x, y :: x in s.roles && y in b.roles ==> x.id != y.id)
    && (forall x, y :: x in s.groups && y in b.groups ==> x.id != y.id)
  }

  lemma UniqueRoleRefs(roles: seq<Role>, realmId: Id)
    requires UniqueRoleIds(roles)
    ensures UniqueRefIds(RealmRoleRefs(roles, realmId))
  {
  }

  lemma UniqueGroupRefs(groups: seq<Group>, realmId: Id)
    requires UniqueGroupIds(groups)
    ensures UniqueRefIds(RealmGroupRefs(groups, realmId))
  {
  }

  /** The guarded remap, row by row: a row on a matched old id is re-pointed, a row on no old id is kept. */
  lemma RemapIfAnyRows(rows: seq<Link>, olds: seq<Ref>, news: seq<Ref>)
    requires UniqueRefIds(olds) && FreshIds(olds, news)
    ensures var mid := RemapIfAny(rows, GroupBy(olds), GroupBy(news), Names(olds));
      && |mid| == |rows|
      && (forall k, o :: 0 <= k < |rows| && o in olds && rows[k].targetId == o.id && MatchOf(o, news).Some? ==>
            mid[k] == Link(rows[k].userId, MatchOf(o, news).value.id))
      && (forall k :: 0 <= k < |rows| && (forall o :: o in olds ==> rows[k].targetId != o.id) ==> mid[k] == rows[k])
  {
    GroupByEmpty(news);
    if |news| > 0 {
      assert RemapIfAny(rows, GroupBy(olds), GroupBy(news), Names(olds)) == RemapLinks(rows, olds, news);
    }
  }

  /** A row whose target exists survives the sweep. */
  lemma SweepKeepsRow(rows: seq<Link>, ids: set<Id>, k: int)
    requires 0 <= k < |rows| && rows[k].targetId in ids
    ensures rows[k] in SweepOrphans(rows, ids)
  {
    assert rows[k] in rows;
    assert multiset(rows)[rows[k]] > 0;
  }

  /** The sweep applied to a table whose rows relate to `rows` as the guarded remap's do. */
  lemma SweptRows(rows: seq<Link>, mid: seq<Link>, olds: seq<Ref>, news: seq<Ref>, ids: set<Id>)
    requires forall n :: n in news ==> n.id in ids
    requires |mid| == |rows|
    requires forall k, o :: 0 <= k < |rows| && o in olds && rows[k].targetId == o.id && MatchOf(o, news).Some? ==>
      mid[k] == Link(rows[k].userId, MatchOf(o, news).value.id)
    requires forall k :: 0 <= k < |rows| && (forall o :: o in olds ==> rows[k].targetId != o.id) ==> mid[k] == rows[k]
    ensures forall l, o :: l in rows && o in olds && l.targetId == o.id && MatchOf(o, news).Some? ==>
      Link(l.userId, MatchOf(o, news).value.id) in SweepOrphans(mid, ids)
    ensures forall l :: l in rows && l.targetId in ids && (forall o :: o in olds ==> l.targetId != o.id) ==>
      l in SweepOrphans(mid, ids)
  {
    forall l, o | l in rows && o in olds && l.targetId == o.id && MatchOf(o, news).Some?
      ensures Link(l.userId, MatchOf(o, news).value.id) in SweepOrphans(mid, ids)
    {
      MatchOfSpec(o, news);
      var k :| 0 <= k < |rows| && rows[k] == l;
      SweepKeepsRow(mid, ids, k);
    }
    forall l | l in rows && l.targetId in ids && (forall o :: o in olds ==> l.targetId != o.id)
      ensures l in SweepOrphans(mid, ids)
    {
      var k :| 0 <= k < |rows| && rows[k] == l;
      SweepKeepsRow(mid, ids, k);
    }
  }

  /**
   * One association table through remap (skipped on an empty post-rebuild snapshot)
   * and sweep: a row whose old target found a match survives re-pointed at the match;
   * a row whose target is no old record and still exists survives unchanged.
   */
  lemma RemapThenSweep(rows: seq<Link>, olds: seq<Ref>, news: seq<Ref>, ids: set<Id>)
    requires UniqueRefIds(olds) && FreshIds(olds, news)
    requires forall n :: n in news ==> n.id in ids
    ensures forall l, o :: l in rows && o in olds && l.targetId == o.id && MatchOf(o, news).Some? ==>
      Link(l.userId, MatchOf(o, news).value.id) in SweepOrphans(RemapIfAny(rows, GroupBy(olds), GroupBy(news), Names(olds)), ids)
    ensures forall l :: l in rows && l.targetId in ids && (forall o :: o in olds ==> l.targetId != o.id) ==>
      l in SweepOrphans(RemapIfAny(rows, GroupBy(olds), GroupBy(news), Names(olds)), ids)
  {
    RemapIfAnyRows(rows, olds, news);
    SweptRows(rows, RemapIfAny(rows, GroupBy(olds), GroupBy(news), Names(olds)), olds, news, ids);
  }

  lemma RealmRoleRefsEmpty(roles: seq<Role>, realmId: Id)
    requires forall x :: x in roles ==> x.realmId != realmId
    ensures RealmRoleRefs(roles, realmId) == []
  {
  }

  lemma RealmGroupRefsEmpty(groups: seq<Group>, realmId: Id)
    requires forall g :: g in groups ==> g.realmId != realmId
    ensures RealmGroupRefs(groups, realmId) == []
  {
  }

  /** A row of a user the purge spares is still present after teardown, purge and rebuild. */
  lemma SurvivesToRebuild(s: Store, realmId: Id, usernames: seq<string>, b: Rebuilt)
    requires WellFormed(s)
    ensures var s3 := Staged(s, realmId, usernames, b);
      && (forall l :: l in s.roleMappings && l.userId !in PurgedIds(s.users, realmId, usernames) ==> l in s3.roleMappings)
      && (forall l :: l in s.groupMemberships && l.userId !in PurgedIds(s.users, realmId, usernames) ==> l in s3.groupMemberships)
      && (forall u :: u in s.users && !Doomed(u, realmId, usernames) ==> u in s3.users)
  {
    var s1 := Teardown(s, realmId);
    PurgeLinksSpec(s1, realmId, usernames);
    PurgeUsersSpec(s1, realmId, usernames);
    var s2 := PurgeDefaultUsers(s1, realmId, usernames);
    forall l | l in s.roleMappings && l.userId !in PurgedIds(s.users, realmId, usernames)
      ensures l in s2.roleMappings
    {
      assert multiset(s2.roleMappings)[l] == multiset(s.roleMappings)[l];
    }
    forall l | l in s.groupMemberships && l.userId !in PurgedIds(s.users, realmId, usernames)
      ensures l in s2.groupMemberships
    {
      assert multiset(s2.groupMemberships)[l] == multiset(s.groupMemberships)[l];
    }
  }

  /** After teardown and rebuild the realm's roles are exactly the rebuilt ones; other realms' roles remain. */
  lemma StagedRoles(s: Store, realmId: Id, usernames: seq<string>, b: Rebuilt)
    requires WellFormed(s) && FreshRebuild(s, b)
    ensures var s3 := Staged(s, realmId, usernames, b);
      && RealmRoleRefs(s3.roles, realmId) == RealmRoleRefs(b.roles, realmId)
      && (forall n :: n in RealmRoleRefs(b.roles, realmId) ==> n.id in RoleIds(s3.roles))
      && (forall x :: x in s.roles && x.realmId != realmId ==> x in s3.roles)
      && (forall o, y :: o in s.roles && o.realmId == realmId && y in s3.roles ==> y.id != o.id)
  {
    var s1 := Teardown(s, realmId);
    var s2 := PurgeDefaultUsers(s1, realmId, usernames);
    var s3 := Staged(s, realmId, usernames, b);
    assert s2.roles == s1.roles;
    assert s3.roles == s1.roles + b.roles;
    RealmRoleRefsConcat(s1.roles, b.roles, realmId);
    RealmRoleRefsEmpty(s1.roles, realmId);
    forall n | n in RealmRoleRefs(b.roles, realmId) ensures n.id in RoleIds(s3.roles) {
      var y :| y in b.roles && y.realmId == realmId && RoleRef(y) == n;
      assert y in s3.roles;
    }
  }

  /** The group counterpart of StagedRoles, for a realm whose groups teardown removes entirely. */
  lemma StagedGroups(s: Store, realmId: Id, usernames: seq<string>, b: Rebuilt)
    requires WellFormed(s) && FreshRebuild(s, b) && ShallowGroups(s.groups, realmId)
    ensures var s3 := Staged(s, realmId, usernames, b);
      && RealmGroupRefs(s3.groups, realmId) == RealmGroupRefs(b.groups, realmId)
      && (forall n :: n in RealmGroupRefs(b.groups, realmId) ==> n.id in GroupIds(s3.groups))
      && (forall x :: x in s.groups && x.realmId != realmId ==> x in s3.groups)
      && (forall o, y :: o in s.groups && o.realmId == realmId && y in s3.groups ==> y.id != o.id)
  {
    var s1 := Teardown(s, realmId);
    var s2 := PurgeDefaultUsers(s1, realmId, usernames);
    var s3 := Staged(s, realmId, usernames, b);
    assert s2.groups == s1.groups;
    assert s3.groups == s1.groups + b.groups;
    TeardownClearsShallowRealm(s, realmId);
    RealmGroupRefsConcat(s1.groups, b.groups, realmId);
    RealmGroupRefsEmpty(s1.groups, realmId);
    forall n | n in RealmGroupRefs(b.groups, realmId) ensures n.id in GroupIds(s3.groups) {
      var y :| y in b.groups && y.realmId == realmId && GroupRef(y) == n;
      assert y in s3.groups;
    }
  }

  /** The remapped tables in terms of the before and after query results. */
  lemma RemappedTables(s: Store, realmId: Id, usernames: seq<string>, b: Rebuilt)
    ensures var s3 := Staged(s, realmId, usernames, b);
      var oldRoles, oldGroups := RealmRoleRefs(s.roles, realmId), RealmGroupRefs(s.groups, realmId);
      && RemappedRoles(s, realmId, usernames, b)
        == RemapIfAny(s3.roleMappings, GroupBy(oldRoles), GroupBy(RealmRoleRefs(s3.roles, realmId)), Names(oldRoles))
      && RemappedGroups(s, realmId, usernames, b)
        == RemapIfAny(s3.groupMemberships, GroupBy(oldGroups), GroupBy(RealmGroupRefs(s3.groups, realmId)), Names(oldGroups))
  {
  }

  /** What `importRealmInternal` commits when it overwrites an existing realm: the reconciled store, or nothing. */
  lemma OverwriteReconciles(s: Store, rep: RealmRep, b: Rebuilt)
    requires FindRealm(s.realms, rep.realm).Some?
    ensures var rc := Reconcile(s, FindRealm(s.realms, rep.realm).value.id, rep.usernames, b);
      var r := ImportRealmInternal(s, rep, OverwriteExisting, b);
      && (r.Success? <==> rc.Success?)
      && (r.Success? ==> r.value.store == rc.value)
  {
    var rc := Reconcile(s, FindRealm(s.realms, rep.realm).value.id, rep.usernames, b);
    assert ImportRealmInternal(s, rep, OverwriteExisting, b) == if rc.Failure? then Failure(rc.error) else Success(Imported(true, rc.value));
  }

  /** The swept roleMappings table of a reimport, in terms of the store before it. */
  lemma SweptRoles(s: Store, realmId: Id, usernames: seq<string>, b: Rebuilt, rows: seq<Link>)
    requires WellFormed(s) && FreshRebuild(s, b)
    requires rows == SweepOrphans(RemappedRoles(s, realmId, usernames, b), RoleIds(Staged(s, realmId, usernames, b).roles))
    ensures var news := RealmRoleRefs(b.roles, realmId);
      var purged := PurgedIds(s.users, realmId, usernames);
      && (forall l, o :: (l in s.roleMappings && o in s.roles && o.realmId == realmId && l.targetId == o.id
            && l.userId !in purged && MatchOf(RoleRef(o), news).Some?) ==>
            Link(l.userId, MatchOf(RoleRef(o), news).value.id) in rows)
      && (forall l, x :: (l in s.roleMappings && x in s.roles && x.realmId != realmId && l.targetId == x.id
            && l.userId !in purged) ==> l in rows)
      && (forall l, o :: l in rows && o in s.roles && o.realmId == realmId ==> l.targetId != o.id)
  {
    var olds := RealmRoleRefs(s.roles, realmId);
    var s3 := Staged(s, realmId, usernames, b);
    var news := RealmRoleRefs(b.roles, realmId);
    StagedRoles(s, realmId, usernames, b);
    RemappedTables(s, realmId, usernames, b);
    UniqueRoleRefs(s.roles, realmId);
    SurvivesToRebuild(s, realmId, usernames, b);
    RemapThenSweep(s3.roleMappings, olds, news, RoleIds(s3.roles));
    forall l, o | l in s.roleMappings && o in s.roles && o.realmId == realmId && l.targetId == o.id
        && l.userId !in PurgedIds(s.users, realmId, usernames) && MatchOf(RoleRef(o), news).Some?
      ensures Link(l.userId, MatchOf(RoleRef(o), news).value.id) in rows
    {
      assert RoleRef(o) in olds;
    }
    forall l, x | l in s.roleMappings && x in s.roles && x.realmId != realmId && l.targetId == x.id
        && l.userId !in PurgedIds(s.users, realmId, usernames)
      ensures l in rows
    {
      assert x in s3.roles;
      forall o | o in olds ensures l.targetId != o.id {
        var y :| y in s.roles && y.realmId == realmId && RoleRef(y) == o;
      }
    }
  }

  /** The role half of the reimport guarantee. */
  lemma ReconcileRoles(s: Store, realmId: Id, usernames: seq<string>, b: Rebuilt)
    requires WellFormed(s) && FreshRebuild(s, b)
    ensures Reconcile(s, realmId, usernames, b).Success? ==>
      var r := Reconcile(s, realmId, usernames, b).value;
      var news := RealmRoleRefs(b.roles, realmId);
      var purged := PurgedIds(s.users, realmId, usernames);
      && (forall l, o :: (l in s.roleMappings && o in s.roles && o.realmId == realmId && l.targetId == o.id
            && l.userId !in purged && MatchOf(RoleRef(o), news).Some?) ==>
            Link(l.userId, MatchOf(RoleRef(o), news).value.id) in r.roleMappings)
      && (forall l, x :: (l in s.roleMappings && x in s.roles && x.realmId != realmId && l.targetId == x.id
            && l.userId !in purged) ==> l in r.roleMappings)
      && (forall l, o :: l in r.roleMappings && o in s.roles && o.realmId == realmId ==> l.targetId != o.id)
  {
    if Reconcile(s, realmId, usernames, b).Success? {
      var r := Reconcile(s, realmId, usernames, b).value;
      SweptRoles(s, realmId, usernames, b, r.roleMappings);
    }
  }

  /** The swept groupMemberships table of a reimport, in terms of the store before it. */
  lemma SweptGroups(s: Store, realmId: Id, usernames: seq<string>, b: Rebuilt, rows: seq<Link>)
    requires WellFormed(s) && FreshRebuild(s, b) && ShallowGroups(s.groups, realmId)
    requires rows == SweepOrphans(RemappedGroups(s, realmId, usernames, b), GroupIds(Staged(s, realmId, usernames, b).groups))
    ensures var news := RealmGroupRefs(b.groups, realmId);
      var purged := PurgedIds(s.users, realmId, usernames);
      && (forall l, o :: (l in s.groupMemberships && o in s.groups && o.realmId == realmId && l.targetId == o.id
            && l.userId !in purged && MatchOf(GroupRef(o), news).Some?) ==>
            Link(l.userId, MatchOf(GroupRef(o), news).value.id) in rows)
      && (forall l, x :: (l in s.groupMemberships && x in s.groups && x.realmId != realmId && l.targetId == x.id
            && l.userId !in purged) ==> l in rows)
      && (forall l, o :: l in rows && o in s.groups && o.realmId == realmId ==> l.targetId != o.id)
  {
    var olds := RealmGroupRefs(s.groups, realmId);
    var s3 := Staged(s, realmId, usernames, b);
    var news := RealmGroupRefs(b.groups, realmId);
    StagedGroups(s, realmId, usernames, b);
    RemappedTables(s, realmId, usernames, b);
    UniqueGroupRefs(s.groups, realmId);
    SurvivesToRebuild(s, realmId, usernames, b);
    RemapThenSweep(s3.groupMemberships, olds, news, GroupIds(s3.groups));
    forall l, o | l in s.groupMemberships && o in s.groups && o.realmId == realmId && l.targetId == o.id
        && l.userId !in PurgedIds(s.users, realmId, usernames) && MatchOf(GroupRef(o), news).Some?
      ensures Link(l.userId, MatchOf(GroupRef(o), news).value.id) in rows
    {
      assert GroupRef(o) in olds;
    }
    forall l, x | l in s.groupMemberships && x in s.groups && x.realmId != realmId && l.targetId == x.id
        && l.userId !in PurgedIds(s.users, realmId, usernames)
      ensures l in rows
    {
      assert x in s3.groups;
      forall o | o in olds ensures l.targetId != o.id {
        var y :| y in s.groups && y.realmId == realmId && GroupRef(y) == o;
      }
    }
  }

  /** The group half of the reimport guarantee, for a realm whose groups teardown removes entirely. */
  lemma ReconcileGroups(s: Store, realmId: Id, usernames: seq<string>, b: Rebuilt)
    requires WellFormed(s) && FreshRebuild(s, b) && ShallowGroups(s.groups, realmId)
    ensures Reconcile(s, realmId, usernames, b).Success? ==>
      var r := Reconcile(s, realmId, usernames, b).value;
      var news := RealmGroupRefs(b.groups, realmId);
      var purged := PurgedIds(s.users, realmId, usernames);
      && (forall l, o :: (l in s.groupMemberships && o in s.groups && o.realmId == realmId && l.targetId == o.id
            && l.userId !in purged && MatchOf(GroupRef(o), news).Some?) ==>
            Link(l.userId, MatchOf(GroupRef(o), news).value.id) in r.groupMemberships)
      && (forall l, x :: (l in s.groupMemberships && x in s.groups && x.realmId != realmId && l.targetId == x.id
            && l.userId !in purged) ==> l in r.groupMemberships)
      && (forall l, o :: l in r.groupMemberships && o in s.groups && o.realmId == realmId ==> l.targetId != o.id)
  {
    if Reconcile(s, realmId, usernames, b).Success? {
      var r := Reconcile(s, realmId, usernames, b).value;
      SweptGroups(s, realmId, usernames, b, r.groupMemberships);
    }
  }

  /**
   * Overwriting an existing realm whose staged association tables satisfy their key
   * commits exactly when neither remapped table would hold the same row twice.
   */
  lemma ReimportSucceedsIff(s: Store, rep: RealmRep, b: Rebuilt)
    requires FindRealm(s.realms, rep.realm).Some?
    ensures var realmId := FindRealm(s.realms, rep.realm).value.id;
      var s3 := Staged(s, realmId, rep.usernames, b);
      KeyUnique(s3.roleMappings) && KeyUnique(s3.groupMemberships) ==>
        (ImportRealmInternal(s, rep, OverwriteExisting, b).Success? <==>
          KeyUnique(RemappedRoles(s, realmId, rep.usernames, b)) && KeyUnique(RemappedGroups(s, realmId, rep.usernames, b)))
  {
    OverwriteReconciles(s, rep, b);
  }

  /**
   * Reimporting an existing realm keeps every user the purge spares, re-points each
   * spared user's mapping to a role or group that has a same-name successor at that
   * successor, keeps memberships in other realms' roles and groups, and leaves no row
   * pointing at a replaced id.
   */
  lemma ReimportPreservesAssignments(s: Store, rep: RealmRep, b: Rebuilt)
    requires WellFormed(s) && FreshRebuild(s, b)
    requires FindRealm(s.realms, rep.realm).Some?
    requires ShallowGroups(s.groups, FindRealm(s.realms, rep.realm).value.id)
    ensures ImportRealmInternal(s, rep, OverwriteExisting, b).Success? ==>
      var realmId := FindRealm(s.realms, rep.realm).value.id;
      var r := ImportRealmInternal(s, rep, OverwriteExisting, b).value.store;
      var purged := PurgedIds(s.users, realmId, rep.usernames);
      var newRoles := RealmRoleRefs(b.roles, realmId);
      var newGroups := RealmGroupRefs(b.groups, realmId);
      && (forall u :: u in s.users && !Doomed(u, realmId, rep.usernames) ==> u in r.users)
      && (forall l, o :: (l in s.roleMappings && o in s.roles && o.realmId == realmId && l.targetId == o.id
            && l.userId !in purged && MatchOf(RoleRef(o), newRoles).Some?) ==>
            Link(l.userId, MatchOf(RoleRef(o), newRoles).value.id) in r.roleMappings)
      && (forall l, o :: (l in s.groupMemberships && o in s.groups && o.realmId == realmId && l.targetId == o.id
            && l.userId !in purged && MatchOf(GroupRef(o), newGroups).Some?) ==>
            Link(l.userId, MatchOf(GroupRef(o), newGroups).value.id) in r.groupMemberships)
      && (forall l, x :: (l in s.roleMappings && x in s.roles && x.realmId != realmId && l.targetId == x.id
            && l.userId !in purged) ==> l in r.roleMappings)
      && (forall l, x :: (l in s.groupMemberships && x in s.groups && x.realmId != realmId && l.targetId == x.id
            && l.userId !in purged) ==> l in r.groupMemberships)
      && (forall l, o :: l in r.roleMappings && o in s.roles && o.realmId == realmId ==> l.targetId != o.id)
      && (forall l, o :: l in r.groupMemberships && o in s.groups && o.realmId == realmId ==> l.targetId != o.id)
  {
    var realmId := FindRealm(s.realms, rep.realm).value.id;
    var rc := Reconcile(s, realmId, rep.usernames, b);
    OverwriteReconciles(s, rep, b);
    if rc.Success? {
      var r := rc.value;
      SweptRoles(s, realmId, rep.usernames, b, r.roleMappings);
      SweptGroups(s, realmId, rep.usernames, b, r.groupMemberships);
      SurvivesToRebuild(s, realmId, rep.usernames, b);
    }
  }
}

=== FILE: purge.dfy ===
/**
 * Default-user purge: before the rebuild recreates the users listed in the realm
 * representation, each existing user of the realm with such a username is deleted
 * together with its role mappings and group memberships.
 */
module Purge {
  import opened Wrappers
  import opened Seqs
  import opened Schema

  /** `getRealmUserByUsername(...).firstOrNull()`. */
  function FirstUser(users: seq<User>, realmId: Id, username: string): (r: Option<User>)
    ensures r.Some? ==> r.value in users && r.value.realmId == realmId && r.value.username == username
    ensures r.None? <==> forall u :: u in users ==> !(u.realmId == realmId && u.username == username)
  {
    if |users| == 0 then None
    else if users[0].realmId == realmId && users[0].username == username then Some(users[0])
    else
      assert forall u :: u in users <==> u == users[0] || u in users[1..];
      FirstUser(users[1..], realmId, username)
  }

  /** `deleteUserRoleMappingsByUser`, `deleteUserGroupMembershipsByUser`, then `remove(user)`. */
  function RemoveUser(s: Store, u: User): (r: Store)
    ensures r.realms == s.realms && r.roles == s.roles && r.groups == s.groups
    ensures forall x :: x in r.users <==> x in s.users && x.id != u.id
    ensures forall l :: multiset(r.roleMappings)[l] == if l.userId == u.id then 0 else multiset(s.roleMappings)[l]
    ensures forall l :: multiset(r.groupMemberships)[l] == if l.userId == u.id then 0 else multiset(s.groupMemberships)[l]
  {
    s.(users := Filter((x: User) => x.id != u.id, s.users),
       roleMappings := Filter((l: Link) => l.userId != u.id, s.roleMappings),
       groupMemberships := Filter((l: Link) => l.userId != u.id, s.groupMemberships))
  }

  /** The purge loop over the representation's usernames, in order. */
  function PurgeDefaultUsers(s: Store, realmId: Id, usernames: seq<string>): (r: Store)
    ensures r.realms == s.realms && r.roles == s.roles && r.groups == s.groups
    decreases |usernames|
  {
    if |usernames| == 0 then s
    else
      var s1 := match FirstUser(s.users, realmId, usernames[0])
        case Some(u) => RemoveUser(s, u)
        case None => s;
      PurgeDefaultUsers(s1, realmId, usernames[1..])
  }

  /** A user the purge targets: one of the realm's users whose username the representation lists. */
  predicate Doomed(u: User, realmId: Id, usernames: seq<string>) {
    u.realmId == realmId && u.username in usernames
  }

  function PurgedIds(users: seq<User>, realmId: Id, usernames: seq<string>): set<Id> {
    set u | u in users && Doomed(u, realmId, usernames) :: u.id
  }

  /** One purge step on the id set: the users left to purge are the rest's targets among the survivors. */
  lemma PurgedIdsStep(s: Store, realmId: Id, usernames: seq<string>)
    requires UniqueUserIds(s.users) && UniqueUsernames(s.users) && |usernames| > 0
    ensures match FirstUser(s.users, realmId, usernames[0])
      case None => PurgedIds(s.users, realmId, usernames) == PurgedIds(s.users, realmId, usernames[1..])
      case Some(u0) =>
        PurgedIds(s.users, realmId, usernames) == PurgedIds(RemoveUser(s, u0).users, realmId, usernames[1..]) + {u0.id}
  {
    var name, rest := usernames[0], usernames[1..];
    assert forall x :: x in usernames <==> x == name || x in rest;
    var ids := PurgedIds(s.users, realmId, usernames);
    match FirstUser(s.users, realmId, name)
    case None =>
      assert ids == PurgedIds(s.users, realmId, rest);
    case Some(u0) =>
      var s1 := RemoveUser(s, u0);
      var ids1 := PurgedIds(s1.users, realmId, rest);
      forall id | id in ids ensures id in ids1 + {u0.id} {
        var u :| u in s.users && Doomed(u, realmId, usernames) && u.id == id;
        if u.id != u0.id {
          assert u in s1.users && Doomed(u, realmId, rest);
        }
      }
      forall id | id in ids1 ensures id in ids {
        var u :| u in s1.users && Doomed(u, realmId, rest) && u.id == id;
        assert u in s.users && Doomed(u, realmId, usernames);
      }
      assert u0 in s.users && Doomed(u0, realmId, usernames);
  }

  /** The purge deletes exactly the realm's users whose username the representation lists. */
  lemma {:induction false} PurgeUsersSpec(s: Store, realmId: Id, usernames: seq<string>)
    requires UniqueUserIds(s.users) && UniqueUsernames(s.users)
    ensures forall u :: u in PurgeDefaultUsers(s, realmId, usernames).users <==> u in s.users && !Doomed(u, realmId, usernames)
    decreases |usernames|
  {
    if |usernames| > 0 {
      var name, rest := usernames[0], usernames[1..];
      assert forall x :: x in usernames <==> x == name || x in rest;
      match FirstUser(s.users, realmId, name)
      case None =>
        PurgeUsersSpec(s, realmId, rest);
      case Some(u0) =>
        PurgeUsersSpec(RemoveUser(s, u0), realmId, rest);
        assert forall u :: u in s.users && u.realmId == realmId && u.username == name ==> u == u0;
    }
  }

  /** The purge deletes exactly the association rows of the purged users, keeping all others with their multiplicity. */
  lemma {:induction false} PurgeLinksSpec(s: Store, realmId: Id, usernames: seq<string>)
    requires UniqueUserIds(s.users) && UniqueUsernames(s.users)
    ensures var r := PurgeDefaultUsers(s, realmId, usernames);
      forall l :: multiset(r.roleMappings)[l] ==
        if l.userId in PurgedIds(s.users, realmId, usernames) then 0 else multiset(s.roleMappings)[l]
    ensures var r := PurgeDefaultUsers(s, realmId, usernames);
      forall l :: multiset(r.groupMemberships)[l] ==
        if l.userId in PurgedIds(s.users, realmId, usernames) then 0 else multiset(s.groupMemberships)[l]
    decreases |usernames|
  {
    if |usernames| == 0 {
      assert PurgedIds(s.users, realmId, usernames) == {};
    } else {
      PurgedIdsStep(s, realmId, usernames);
      match FirstUser(s.users, realmId, usernames[0])
      case None =>
        PurgeLinksSpec(s, realmId, usernames[1..]);
      case Some(u0) =>
        PurgeLinksSpec(RemoveUser(s, u0), realmId, usernames[1..]);
    }
  }
}

=== FILE: remap.dfy ===
/**
 * Identity remap: after a rebuild every role and group has a new id, and each
 * association row that pointed at an old id is re-pointed at the new record of the
 * same name (`updateRoleMappings`, `updateGroupMemberships`).
 */
module Remap {
  import opened Wrappers
  import opened Schema
  import opened Seqs
  import opened Snapshot

  /**
   * Whether `cand` may inherit the rows of `former`: it has a different id and, when `former`
   * is owned by a client, the same owning client. A realm-scoped `former` accepts any
   * candidate of its bucket, client roles included.
   */
  predicate Qualifies(former: Ref, cand: Ref) {
    cand.id != former.id && (former.clientId.Some? ==> cand.clientId == former.clientId)
  }

  /** `find`: the first candidate in list order that qualifies. */
  function FindMatch(former: Ref, cands: seq<Ref>): (r: Option<Ref>)
    ensures r.Some? ==> r.value in cands && Qualifies(former, r.value)
    ensures r.Some? ==>
      exists i :: 0 <= i < |cands| && cands[i] == r.value && forall j :: 0 <= j < i ==> !Qualifies(former, cands[j])
    ensures r.None? <==> forall c :: c in cands ==> !Qualifies(former, c)
  {
    if |cands| == 0 then None
    else if Qualifies(former, cands[0]) then Some(cands[0])
    else
      var r := FindMatch(former, cands[1..]);
      assert r.Some? ==>
        exists i :: 0 <= i < |cands| && cands[i] == r.value && forall j :: 0 <= j < i ==> !Qualifies(former, cands[j]) by {
        if r.Some? {
          var i :| 0 <= i < |cands[1..]| && cands[1..][i] == r.value && forall j :: 0 <= j < i ==> !Qualifies(former, cands[1..][j]);
          assert cands[i + 1] == r.value;
          forall j | 0 <= j < i + 1 ensures !Qualifies(former, cands[j]) {
            if j > 0 { assert cands[j] == cands[1..][j - 1]; }
          }
        }
      }
      assert forall c :: c in cands <==> c == cands[0] || c in cands[1..];
      r
  }

  /** The record that inherits `former`'s rows: looked up in the bucket of `former`'s name among `news`. */
  function MatchOf(former: Ref, news: seq<Ref>): Option<Ref> {
    FindMatch(former, Bucket(news, former.name))
  }

  /** A record of `news` that may inherit `former`'s rows: same name, and it qualifies. */
  predicate Eligible(former: Ref, c: Ref) {
    c.name == former.name && Qualifies(former, c)
  }

  /** `news[i]` is the first eligible record of `news`. */
  predicate FirstEligible(former: Ref, news: seq<Ref>, i: int) {
    && 0 <= i < |news| && Eligible(former, news[i])
    && forall j :: 0 <= j < i ==> !Eligible(former, news[j])
  }

  /** Looking up the bucket of `news` is looking at its head, then at the rest. */
  lemma MatchOfStep(former: Ref, news: seq<Ref>)
    requires |news| > 0
    ensures MatchOf(former, news) ==
      if Eligible(former, news[0]) then Some(news[0]) else MatchOf(former, news[1..])
  {
    var rest := Bucket(news[1..], former.name);
    if news[0].name == former.name {
      assert Bucket(news, former.name) == [news[0]] + rest;
      assert ([news[0]] + rest)[1..] == rest;
    } else {
      assert Bucket(news, former.name) == rest;
    }
  }

  /** A first eligible record of the tail is the first of the whole when the head is not eligible. */
  lemma FirstEligibleShift(former: Ref, news: seq<Ref>, i: int)
    requires |news| > 0 && !Eligible(former, news[0]) && FirstEligible(former, news[1..], i)
    ensures FirstEligible(former, news, i + 1)
  {
    forall j | 0 <= j < i + 1 ensures !Eligible(former, news[j]) {
      if j > 0 { assert news[j] == news[1..][j - 1]; }
    }
  }

  /**
   * The inheriting record has the same name, a different id and, for a client-owned
   * `former`, the same client; it is the first such record of `news` in list order; and
   * there is none exactly when no record of `news` has the name and qualifies.
   */
  lemma {:induction false} MatchOfSpec(former: Ref, news: seq<Ref>)
    ensures MatchOf(former, news).Some? ==>
      var n := MatchOf(former, news).value;
      && n in news && n.name == former.name && n.id != former.id
      && (former.clientId.Some? ==> n.clientId == former.clientId)
      && exists i :: FirstEligible(former, news, i) && news[i] == n
    ensures MatchOf(former, news).None? <==> forall c :: c in news ==> !Eligible(former, c)
  {
    if |news| > 0 {
      MatchOfStep(former, news);
      MatchOfSpec(former, news[1..]);
      assert forall c :: c in news <==> c == news[0] || c in news[1..];
      if Eligible(former, news[0]) {
        assert FirstEligible(former, news, 0);
      } else if MatchOf(former, news).Some? {
        var i :| FirstEligible(former, news[1..], i) && news[1..][i] == MatchOf(former, news).value;
        FirstEligibleShift(former, news, i);
      }
    }
  }

  /** Bucketing by bare name lets a realm role's rows pass to a client role of the same name. */
  lemma RealmRoleMayPassToClientRole()
    ensures MatchOf(Ref("1", "admin", None), [Ref("2", "admin", Some("c"))]) == Some(Ref("2", "admin", Some("c")))
  {
    var news := [Ref("2", "admin", Some("c"))];
    assert news[1..] == [];
    assert Bucket(news, "admin") == news;
  }

  /** One bulk `update ... set id = to where id = from`. */
  datatype Rewrite = Rewrite(from: Id, to: Id)

  function Retarget(rows: seq<Link>, w: Rewrite): (r: seq<Link>)
    ensures |r| == |rows|
    ensures forall i :: 0 <= i < |rows| && rows[i].targetId != w.from ==> r[i] == rows[i]
    ensures forall i :: 0 <= i < |rows| && rows[i].targetId == w.from ==> r[i] == Link(rows[i].userId, w.to)
  {
    seq(|rows|, i requires 0 <= i < |rows| =>
      if rows[i].targetId == w.from then Link(rows[i].userId, w.to) else rows[i])
  }

  /** What one bulk update does to one row. */
  function Moved(row: Link, w: Rewrite): Link {
    if row.targetId == w.from then Link(row.userId, w.to) else row
  }

  lemma RetargetCons(rows: seq<Link>, w: Rewrite)
    requires |rows| > 0
    ensures multiset(Retarget(rows, w)) == multiset{Moved(rows[0], w)} + multiset(Retarget(rows[1..], w))
  {
    var r := Retarget(rows, w);
    assert r == [Moved(rows[0], w)] + Retarget(rows[1..], w);
  }

  /** The per-user counts of one row before and after the update. */
  lemma MovedCounts(row: Link, w: Rewrite, u: Id, l: Link)
    requires w.from != w.to
    ensures multiset{Moved(row, w)}[Link(u, w.from)] == 0
    ensures multiset{Moved(row, w)}[Link(u, w.to)] == multiset{row}[Link(u, w.to)] + multiset{row}[Link(u, w.from)]
    ensures l.targetId != w.from && l.targetId != w.to ==> multiset{Moved(row, w)}[l] == multiset{row}[l]
  {
  }

  /**
   * The bulk update at table level: each row of user `u` on `from` becomes a row of `u`
   * on `to`, no row on `from` is left, and rows on any other target keep their multiplicity.
   * An update whose old and new target coincide changes nothing.
   */
  lemma {:induction false} RetargetCounts(rows: seq<Link>, w: Rewrite, u: Id, l: Link)
    ensures w.from == w.to ==> Retarget(rows, w) == rows
    ensures w.from != w.to ==> multiset(Retarget(rows, w))[Link(u, w.from)] == 0
    ensures w.from != w.to ==>
      multiset(Retarget(rows, w))[Link(u, w.to)] == multiset(rows)[Link(u, w.to)] + multiset(rows)[Link(u, w.from)]
    ensures l.targetId != w.from && l.targetId != w.to ==> multiset(Retarget(rows, w))[l] == multiset(rows)[l]
  {
    if w.from == w.to {
      assert Retarget(rows, w) == rows;
    } else if |rows| > 0 {
      RetargetCounts(rows[1..], w, u, l);
      RetargetCons(rows, w);
      MovedCounts(rows[0], w, u, l);
      MultisetCons(rows);
    }
  }

  /** Some user holds a row on both the old and the new target, so the update would duplicate a key. */
  predicate Collides(rows: seq<Link>, w: Rewrite) {
    w.from != w.to && exists l :: l in rows && l.targetId == w.from && Link(l.userId, w.to) in rows
  }

  /** On a table without duplicate keys, the update keeps the key unique exactly when it collides with no row. */
  lemma RetargetKeyUnique(rows: seq<Link>, w: Rewrite)
    ensures KeyUnique(rows) ==> (KeyUnique(Retarget(rows, w)) <==> !Collides(rows, w))
  {
    var r := Retarget(rows, w);
    if !KeyUnique(rows) {
    } else if w.from == w.to {
      RetargetCounts(rows, w, w.from, Link(w.from, w.from));
    } else if Collides(rows, w) {
      var l :| l in rows && l.targetId == w.from && Link(l.userId, w.to) in rows;
      RetargetCounts(rows, w, l.userId, l);
      assert l == Link(l.userId, w.from);
      assert multiset(r)[Link(l.userId, w.to)] >= 2;
    } else {
      forall l: Link ensures multiset(r)[l] <= 1 {
        RetargetCounts(rows, w, l.userId, l);
        if l.targetId == w.to && multiset(rows)[Link(l.userId, w.from)] > 0 {
          assert Link(l.userId, w.from) in rows;
          assert l == Link(l.userId, w.to);
        }
      }
    }
  }

  /** A row present twice stays duplicated, whatever the update. */
  lemma RetargetKeepsDuplicate(rows: seq<Link>, w: Rewrite)
    requires !KeyUnique(rows)
    ensures !KeyUnique(Retarget(rows, w))
  {
    var l :| multiset(rows)[l] > 1;
    RetargetCounts(rows, w, l.userId, l);
    if w.from != w.to && l.targetId == w.from {
      assert l == Link(l.userId, w.from);
      assert multiset(Retarget(rows, w))[Link(l.userId, w.to)] > 1;
    } else if w.from != w.to && l.targetId == w.to {
      assert l == Link(l.userId, w.to);
    }
  }

  /**
   * The update as the store executes it: refused, naming the update, when it would give
   * some user a second row on the new target.
   */
  function RetargetChecked(rows: seq<Link>, w: Rewrite): (r: Result<seq<Link>, Rewrite>)
    ensures r.Success? ==> r.value == Retarget(rows, w)
    ensures r.Failure? ==> r.error == w
    ensures KeyUnique(rows) ==> (r.Success? <==> KeyUnique(Retarget(rows, w)))
  {
    RetargetKeyUnique(rows, w);
    if Collides(rows, w) then Failure(w) else Success(Retarget(rows, w))
  }

  /** The updates issued for one bucket: one per old record that finds a match, in list order. */
  function BucketPlan(olds: seq<Ref>, cands: seq<Ref>): seq<Rewrite> {
    if |olds| == 0 then []
    else
      (match FindMatch(olds[0], cands)
       case Some(n) => [Rewrite(olds[0].id, n.id)]
       case None => [])
      + BucketPlan(olds[1..], cands)
  }

  /** The updates issued while iterating the before-snapshot's keys in `order`; keys missing after the rebuild are skipped. */
  function Plan(before: map<string, seq<Ref>>, after: map<string, seq<Ref>>, order: seq<string>): seq<Rewrite> {
    if |order| == 0 then []
    else
      (if order[0] in before && order[0] in after then BucketPlan(before[order[0]], after[order[0]]) else [])
      + Plan(before, after, order[1..])
  }

  /** Executing the updates one after another on the association table. */
  function ApplyPlan(rows: seq<Link>, plan: seq<Rewrite>): (r: seq<Link>)
    ensures |r| == |rows|
    ensures forall i :: 0 <= i < |rows| ==> r[i].userId == rows[i].userId
    decreases |plan|
  {
    if |plan| == 0 then rows else ApplyPlan(Retarget(rows, plan[0]), plan[1..])
  }

  /** The fold over the before-snapshot, as `updateRoleMappings` and `updateGroupMemberships` perform it. */
  function UpdateLinks(rows: seq<Link>, before: map<string, seq<Ref>>, after: map<string, seq<Ref>>, order: seq<string>): seq<Link> {
    ApplyPlan(rows, Plan(before, after, order))
  }

  lemma {:induction false} ApplyPlanKeepsDuplicate(rows: seq<Link>, plan: seq<Rewrite>)
    ensures !KeyUnique(rows) ==> !KeyUnique(ApplyPlan(rows, plan))
    decreases |plan|
  {
    if |plan| > 0 && !KeyUnique(rows) {
      RetargetKeepsDuplicate(rows, plan[0]);
      ApplyPlanKeepsDuplicate(Retarget(rows, plan[0]), plan[1..]);
    }
  }

  /**
   * The updates as the store executes them: the first update that would duplicate a key
   * raises, and the transaction ends there. On a key-unique table the updates go through
   * exactly when the final table is still key-unique, and then give `ApplyPlan`'s table.
   */
  function ApplyPlanChecked(rows: seq<Link>, plan: seq<Rewrite>): (r: Result<seq<Link>, Rewrite>)
    ensures r.Success? ==> r.value == ApplyPlan(rows, plan)
    ensures r.Failure? ==> r.error in plan
    ensures KeyUnique(rows) ==> (r.Success? <==> KeyUnique(ApplyPlan(rows, plan)))
    decreases |plan|
  {
    if |plan| == 0 then Success(rows)
    else
      assert plan[0] in plan && forall w :: w in plan[1..] ==> w in plan;
      match RetargetChecked(rows, plan[0])
      case Failure(w) =>
        ApplyPlanKeepsDuplicate(Retarget(rows, plan[0]), plan[1..]);
        Failure(w)
      case Success(next) => ApplyPlanChecked(next, plan[1..])
  }

  /** `updateRoleMappings` / `updateGroupMemberships` with the store's key check. */
  function UpdateLinksChecked(rows: seq<Link>, before: map<string, seq<Ref>>, after: map<string, seq<Ref>>, order: seq<string>): (r: Result<seq<Link>, Rewrite>)
    ensures r.Success? ==> r.value == UpdateLinks(rows, before, after, order)
    ensures KeyUnique(rows) ==> (r.Success? <==> KeyUnique(UpdateLinks(rows, before, after, order)))
  {
    ApplyPlanChecked(rows, Plan(before, after, order))
  }

  /**
   * The remap of an association table from the records `olds` (before) to `news` (after
   * rebuild). The count and every row's user are kept. When old ids are unique and the rebuild's ids
   * fresh, a row whose old target found a match now points at the match, and every other
   * row is unchanged.
   */
  function RemapLinks(rows: seq<Link>, olds: seq<Ref>, news: seq<Ref>): (r: seq<Link>)
    ensures |r| == |rows|
    ensures forall k :: 0 <= k < |rows| ==> r[k].userId == rows[k].userId
    ensures UniqueRefIds(olds) && FreshIds(olds, news) ==>
      forall k, o :: 0 <= k < |rows| && o in olds && rows[k].targetId == o.id && MatchOf(o, news).Some? ==>
        r[k].targetId == MatchOf(o, news).value.id
    ensures UniqueRefIds(olds) && FreshIds(olds, news) ==>
      forall k :: 0 <= k < |rows| && (forall o :: o in olds && rows[k].targetId == o.id ==> MatchOf(o, news).None?) ==>
        r[k] == rows[k]
  {
    RemapLinksFacts(rows, olds, news);
    UpdateLinks(rows, GroupBy(olds), GroupBy(news), Names(olds))
  }

  // ---------------------------------------------------------------------------
  // Reference semantics: the id each row should point at after the remap.

  predicate UniqueRefIds(refs: seq<Ref>) {
    forall x, y :: x in refs && y in refs && x.id == y.id ==> x == y
  }

  /** The rebuild hands out ids that no old record carries. */
  predicate FreshIds(olds: seq<Ref>, news: seq<Ref>) {
    forall x, y :: x in olds && y in news ==> x.id != y.id
  }

  /** Where a row pointing at `t` belongs: the match of the old record with id `t`, or `t` itself. */
  function Corresponding(olds: seq<Ref>, news: seq<Ref>, t: Id): Id {
    if |olds| == 0 then t
    else if olds[0].id == t then
      (match MatchOf(olds[0], news) case Some(n) => n.id case None => t)
    else Corresponding(olds[1..], news, t)
  }

  lemma {:induction false} CorrespondingOfOld(olds: seq<Ref>, news: seq<Ref>, o: Ref)
    requires UniqueRefIds(olds) && o in olds
    ensures Corresponding(olds, news, o.id) == if MatchOf(o, news).Some? then MatchOf(o, news).value.id else o.id
  {
    if olds[0] != o {
      assert olds[0].id != o.id;
      assert forall x :: x in olds[1..] ==> x in olds;
      CorrespondingOfOld(olds[1..], news, o);
    }
  }

  lemma {:induction false} CorrespondingOfOther(olds: seq<Ref>, news: seq<Ref>, t: Id)
    requires forall o :: o in olds ==> o.id != t
    ensures Corresponding(olds, news, t) == t
  {
    if |olds| > 0 {
      assert olds[0] in olds;
      assert forall x :: x in olds[1..] ==> x in olds;
      CorrespondingOfOther(olds[1..], news, t);
    }
  }

  // ---------------------------------------------------------------------------
  // The fold of bulk updates is a simultaneous substitution.

  function Lookup(plan: seq<Rewrite>, t: Id): Id {
    if |plan| == 0 then t else if plan[0].from == t then plan[0].to else Lookup(plan[1..], t)
  }

  lemma {:induction false} LookupMiss(plan: seq<Rewrite>, t: Id)
    requires forall w :: w in plan ==> w.from != t
    ensures Lookup(plan, t) == t
  {
    if |plan| > 0 {
      assert plan[0] in plan;
      assert forall w :: w in plan[1..] ==> w in plan;
      LookupMiss(plan[1..], t);
    }
  }

  lemma {:induction false} LookupHit(plan: seq<Rewrite>, t: Id, v: Id)
    requires Rewrite(t, v) in plan
    requires forall w :: w in plan && w.from == t ==> w.to == v
    ensures Lookup(plan, t) == v
  {
    assert plan[0] in plan;
    if plan[0].from != t {
      assert forall w :: w in plan[1..] ==> w in plan;
      assert Rewrite(t, v) in plan[1..];
      LookupHit(plan[1..], t, v);
    }
  }

  /** No update writes an id that a later (or earlier) update reads. */
  predicate PlanFresh(plan: seq<Rewrite>) {
    forall v, w :: v in plan && w in plan ==> v.to != w.from
  }

  /** Under fresh targets, running the updates in sequence sends each row to its first rewrite. */
  lemma {:induction false} ApplyPlanLookup(rows: seq<Link>, plan: seq<Rewrite>)
    requires PlanFresh(plan)
    ensures forall k :: 0 <= k < |rows| ==> ApplyPlan(rows, plan)[k] == Link(rows[k].userId, Lookup(plan, rows[k].targetId))
    decreases |plan|
  {
    if |plan| > 0 {
      var w := plan[0];
      var rows' := Retarget(rows, w);
      assert forall v :: v in plan[1..] ==> v in plan;
      ApplyPlanLookup(rows', plan[1..]);
      forall k | 0 <= k < |rows|
        ensures ApplyPlan(rows, plan)[k] == Link(rows[k].userId, Lookup(plan, rows[k].targetId))
      {
        if rows[k].targetId == w.from {
          assert w in plan;
          LookupMiss(plan[1..], w.to);
        } else {
          assert rows'[k] == rows[k];
        }
      }
    }
  }

  lemma {:induction false} BucketPlanSound(olds: seq<Ref>, cands: seq<Ref>, w: Rewrite)
    requires w in BucketPlan(olds, cands)
    ensures exists o :: o in olds && o.id == w.from && FindMatch(o, cands).Some? && FindMatch(o, cands).value.id == w.to
  {
    var head := match FindMatch(olds[0], cands) case Some(n) => [Rewrite(olds[0].id, n.id)] case None => [];
    assert BucketPlan(olds, cands) == head + BucketPlan(olds[1..], cands);
    if w in head {
      assert olds[0] in olds;
    } else {
      BucketPlanSound(olds[1..], cands, w);
      assert forall x :: x in olds[1..] ==> x in olds;
    }
  }

  lemma {:induction false} BucketPlanComplete(olds: seq<Ref>, cands: seq<Ref>, o: Ref)
    requires o in olds && FindMatch(o, cands).Some?
    ensures Rewrite(o.id, FindMatch(o, cands).value.id) in BucketPlan(olds, cands)
  {
    var head := match FindMatch(olds[0], cands) case Some(n) => [Rewrite(olds[0].id, n.id)] case None => [];
    assert BucketPlan(olds, cands) == head + BucketPlan(olds[1..], cands);
    if olds[0] != o {
      BucketPlanComplete(olds[1..], cands, o);
    }
  }

  /** What the remap needs of the two snapshots: old buckets hold old records of their key, new buckets are name buckets of `news`. */
  predicate Snapshots(before: map<string, seq<Ref>>, after: map<string, seq<Ref>>, olds: seq<Ref>, news: seq<Ref>) {
    && (forall k, x :: k in before && x in before[k] ==> x in olds && x.name == k)
    && (forall k :: k in after ==> after[k] == Bucket(news, k))
  }

  lemma SnapshotsOfGroupBy(olds: seq<Ref>, news: seq<Ref>)
    ensures Snapshots(GroupBy(olds), GroupBy(news), olds, news)
  {
  }

  lemma {:induction false} PlanSound(before: map<string, seq<Ref>>, after: map<string, seq<Ref>>, olds: seq<Ref>, news: seq<Ref>, order: seq<string>, w: Rewrite)
    requires Snapshots(before, after, olds, news)
    requires w in Plan(before, after, order)
    ensures exists o :: o in olds && o.id == w.from && MatchOf(o, news).Some? && MatchOf(o, news).value.id == w.to
  {
    var k := order[0];
    var head := if k in before && k in after then BucketPlan(before[k], after[k]) else [];
    assert Plan(before, after, order) == head + Plan(before, after, order[1..]);
    if w in head {
      BucketPlanSound(before[k], after[k], w);
      var o: Ref :| o in before[k] && o.id == w.from && FindMatch(o, after[k]).Some? && FindMatch(o, after[k]).value.id == w.to;
      assert o in olds && o.name == k;
    } else {
      PlanSound(before, after, olds, news, order[1..], w);
    }
  }

  lemma {:induction false} PlanComplete(olds: seq<Ref>, news: seq<Ref>, order: seq<string>, o: Ref)
    requires o in olds && o.name in order && MatchOf(o, news).Some?
    ensures Rewrite(o.id, MatchOf(o, news).value.id) in Plan(GroupBy(olds), GroupBy(news), order)
  {
    var before, after := GroupBy(olds), GroupBy(news);
    var k := order[0];
    var head := if k in before && k in after then BucketPlan(before[k], after[k]) else [];
    assert Plan(before, after, order) == head + Plan(before, after, order[1..]);
    if k == o.name {
      var n := MatchOf(o, news).value;
      assert n in Bucket(news, k);
      assert k in before && k in after;
      assert o in before[k];
      BucketPlanComplete(before[k], after[k], o);
    } else {
      PlanComplete(olds, news, order[1..], o);
    }
  }

  /**
   * The central theorem: when old ids are unique and the rebuild's ids are fresh, the
   * fold of bulk updates over ANY enumeration of the before-snapshot's keys rewrites
   * each row exactly once, to the id of the record corresponding to its old target.
   */
  lemma RemapIsSubstitution(rows: seq<Link>, olds: seq<Ref>, news: seq<Ref>, order: seq<string>)
    requires UniqueRefIds(olds) && FreshIds(olds, news)
    requires forall o :: o in olds ==> o.name in order
    ensures |UpdateLinks(rows, GroupBy(olds), GroupBy(news), order)| == |rows|
    ensures forall k :: 0 <= k < |rows| ==>
      UpdateLinks(rows, GroupBy(olds), GroupBy(news), order)[k] ==
      Link(rows[k].userId, Corresponding(olds, news, rows[k].targetId))
  {
    var before, after := GroupBy(olds), GroupBy(news);
    SnapshotsOfGroupBy(olds, news);
    var plan := Plan(before, after, order);
    forall v, w | v in plan && w in plan ensures v.to != w.from {
      PlanSound(before, after, olds, news, order, v);
      PlanSound(before, after, olds, news, order, w);
      var ov :| ov in olds && ov.id == v.from && MatchOf(ov, news).Some? && MatchOf(ov, news).value.id == v.to;
      var ow :| ow in olds && ow.id == w.from;
      MatchOfSpec(ov, news);
    }
    ApplyPlanLookup(rows, plan);
    forall k | 0 <= k < |rows| ensures Lookup(plan, rows[k].targetId) == Corresponding(olds, news, rows[k].targetId) {
      var t := rows[k].targetId;
      if o :| o in olds && o.id == t {
        CorrespondingOfOld(olds, news, o);
        if MatchOf(o, news).Some? {
          var n := MatchOf(o, news).value;
          PlanComplete(olds, news, order, o);
          forall w | w in plan && w.from == t ensures w.to == n.id {
            PlanSound(before, after, olds, news, order, w);
          }
          LookupHit(plan, t, n.id);
        } else {
          forall w | w in plan ensures w.from != t {
            PlanSound(before, after, olds, news, order, w);
          }
          LookupMiss(plan, t);
        }
      } else {
        CorrespondingOfOther(olds, news, t);
        forall w | w in plan ensures w.from != t {
          PlanSound(before, after, olds, news, order, w);
        }
        LookupMiss(plan, t);
      }
    }
  }

  /** The substitution theorem read row by row, for the key order the model visits. */
  lemma RemapLinksFacts(rows: seq<Link>, olds: seq<Ref>, news: seq<Ref>)
    ensures UniqueRefIds(olds) && FreshIds(olds, news) ==>
      var r := UpdateLinks(rows, GroupBy(olds), GroupBy(news), Names(olds));
      && (forall k, o :: 0 <= k < |rows| && o in olds && rows[k].targetId == o.id && MatchOf(o, news).Some? ==>
            r[k].targetId == MatchOf(o, news).value.id)
      && (forall k :: 0 <= k < |rows| && (forall o :: o in olds && rows[k].targetId == o.id ==> MatchOf(o, news).None?) ==>
            r[k] == rows[k])
  {
    if UniqueRefIds(olds) && FreshIds(olds, news) {
      RemapIsSubstitution(rows, olds, news, Names(olds));
      forall k, o | 0 <= k < |rows| && o in olds && rows[k].targetId == o.id
        ensures Corresponding(olds, news, rows[k].targetId) == if MatchOf(o, news).Some? then MatchOf(o, news).value.id else o.id
      {
        CorrespondingOfOld(olds, news, o);
      }
      forall k | 0 <= k < |rows| && (forall o :: o in olds ==> rows[k].targetId != o.id)
        ensures Corresponding(olds, news, rows[k].targetId) == rows[k].targetId
      {
        CorrespondingOfOther(olds, news, rows[k].targetId);
      }
    }
  }

  /** The result does not depend on the order in which the before-snapshot's keys are visited. */
  lemma RemapOrderIrrelevant(rows: seq<Link>, olds: seq<Ref>, news: seq<Ref>, order1: seq<string>, order2: seq<string>)
    requires UniqueRefIds(olds) && FreshIds(olds, news)
    requires forall o :: o in olds ==> o.name in order1 && o.name in order2
    ensures UpdateLinks(rows, GroupBy(olds), GroupBy(news), order1) == UpdateLinks(rows, GroupBy(olds), GroupBy(news), order2)
  {
    RemapIsSubstitution(rows, olds, news, order1);
    RemapIsSubstitution(rows, olds, news, order2);
  }

  /** With nothing after the rebuild no update is issued, so skipping the remap on an empty snapshot changes nothing. */
  lemma {:induction false} RemapWithEmptyAfter(rows: seq<Link>, before: map<string, seq<Ref>>, order: seq<string>)
    ensures UpdateLinks(rows, before, map[], order) == rows
  {
    PlanWithEmptyAfter(before, order);
  }

  lemma {:induction false} PlanWithEmptyAfter(before: map<string, seq<Ref>>, order: seq<string>)
    ensures Plan(before, map[], order) == []
  {
    if |order| > 0 {
      PlanWithEmptyAfter(before, order[1..]);
    }
  }

  /** For a group the qualifying test reduces to "a different id", as in `updateGroupMemberships`. */
  lemma GroupQualifies(g: Group, cand: Ref)
    ensures Qualifies(GroupRef(g), cand) <==> cand.id != g.id
  {
  }

  /** The two old `admins` subgroups, under parents `a` and `b`, and their rebuilt namesakes. */
  function AdminsBefore(): seq<Ref> {
    [GroupRef(Group("x", "admins", Some("a"), "r")), GroupRef(Group("y", "admins", Some("b"), "r"))]
  }

  function AdminsAfter(): seq<Ref> {
    [GroupRef(Group("x2", "admins", Some("a2"), "r")), GroupRef(Group("y2", "admins", Some("b2"), "r"))]
  }

  lemma AdminsKeys()
    ensures Names(AdminsBefore()) == ["admins"]
    ensures Bucket(AdminsBefore(), "admins") == AdminsBefore()
    ensures Bucket(AdminsAfter(), "admins") == AdminsAfter()
  {
    var olds, news := AdminsBefore(), AdminsAfter();
    assert olds[1..][1..] == [] && news[1..][1..] == [];
    assert Names(olds[1..]) == ["admins"];
    assert Bucket(olds[1..], "admins") == olds[1..];
    assert Bucket(news[1..], "admins") == news[1..];
  }

  lemma AdminsBucketPlan()
    ensures BucketPlan(AdminsBefore(), AdminsAfter()) == [Rewrite("x", "x2"), Rewrite("y", "x2")]
  {
    var olds, news := AdminsBefore(), AdminsAfter();
    assert FindMatch(olds[0], news) == Some(news[0]);
    assert FindMatch(olds[1], news) == Some(news[0]);
    assert olds[1..][1..] == [];
    assert BucketPlan(olds[1..], news) == [Rewrite("y", "x2")];
  }

  /** Both old subgroups match the first rebuilt `admins`. */
  lemma AdminsPlan()
    ensures Plan(GroupBy(AdminsBefore()), GroupBy(AdminsAfter()), Names(AdminsBefore())) == [Rewrite("x", "x2"), Rewrite("y", "x2")]
  {
    var olds, news := AdminsBefore(), AdminsAfter();
    AdminsKeys();
    AdminsBucketPlan();
    var before, after := GroupBy(olds), GroupBy(news);
    assert olds[0] in olds && news[0] in news;
    assert "admins" in before && "admins" in after;
    assert before["admins"] == olds && after["admins"] == news;
    var order := ["admins"];
    assert order[1..] == [];
    assert Plan(before, after, order) == BucketPlan(olds, news) + Plan(before, after, []);
  }

  /** The second update would give user `u` a second membership of `x2`. */
  lemma AdminsUpdatesCollide()
    ensures ApplyPlanChecked([Link("u", "x"), Link("u", "y")], [Rewrite("x", "x2"), Rewrite("y", "x2")]) == Failure(Rewrite("y", "x2"))
  {
    var rows := [Link("u", "x"), Link("u", "y")];
    var plan := [Rewrite("x", "x2"), Rewrite("y", "x2")];
    var mid := [Link("u", "x2"), Link("u", "y")];
    assert !Collides(rows, plan[0]);
    assert Retarget(rows, plan[0]) == mid;
    assert Collides(mid, plan[1]) by {
      assert mid[1] in mid && mid[0] in mid;
    }
    assert plan[1..][0] == plan[1];
  }

  /**
   * Two subgroups named `admins` under different parents both match the first rebuilt
   * `admins`, so a user belonging to both collides on the second update: the store
   * refuses it and the remap fails.
   */
  lemma SameNameSubgroupsCollide()
    ensures var rows := [Link("u", "x"), Link("u", "y")];
      && KeyUnique(rows)
      && UpdateLinksChecked(rows, GroupBy(AdminsBefore()), GroupBy(AdminsAfter()), Names(AdminsBefore())) == Failure(Rewrite("y", "x2"))
  {
    var rows := [Link("u", "x"), Link("u", "y")];
    assert multiset(rows) == multiset{Link("u", "x"), Link("u", "y")};
    AdminsPlan();
    AdminsUpdatesCollide();
  }
}

=== FILE: schema.dfy ===
/**
 * The slice of the identity store the import touches: realms, roles, groups,
 * users and the two user association tables. Every table is a sequence of rows;
 * row order carries no meaning, multiplicity does.
 */
module Schema {
  import opened Wrappers
  import opened Seqs

  /** A generated primary key. */
  type Id = string

  datatype Realm = Realm(id: Id, name: string)

  /** A row of `keycloak_role`: realm-scoped when `clientId` is None, otherwise owned by that client. */
  datatype Role = Role(id: Id, name: string, clientId: Option<Id>, realmId: Id)

  /** A row of `keycloak_group`; `parentId` None marks a top-level group. */
  datatype Group = Group(id: Id, name: string, parentId: Option<Id>, realmId: Id)

  datatype User = User(id: Id, username: string, realmId: Id)

  /** A row of `user_role_mapping` (target is a role id) or `user_group_membership` (target is a group id). */
  datatype Link = Link(userId: Id, targetId: Id)

  datatype Store = Store(
    realms: seq<Realm>,
    roles: seq<Role>,
    groups: seq<Group>,
    users: seq<User>,
    roleMappings: seq<Link>,
    groupMemberships: seq<Link>)

  function RoleIds(roles: seq<Role>): set<Id> {
    set r | r in roles :: r.id
  }

  function GroupIds(groups: seq<Group>): set<Id> {
    set g | g in groups :: g.id
  }

  /** Primary keys: two rows with the same id are the same row. */
  predicate UniqueRoleIds(roles: seq<Role>) {
    forall x, y :: x in roles && y in roles && x.id == y.id ==> x == y
  }

  predicate UniqueGroupIds(groups: seq<Group>) {
    forall x, y :: x in groups && y in groups && x.id == y.id ==> x == y
  }

  predicate UniqueUserIds(users: seq<User>) {
    forall x, y :: x in users && y in users && x.id == y.id ==> x == y
  }

  /**
   * The association tables' composite primary key (user, target): no row occurs twice.
   * An update that would produce a second copy of a row is refused by the store.
   */
  ghost predicate KeyUnique(rows: seq<Link>) {
    forall l :: multiset(rows)[l] <= 1
  }

  /** The store's constraint that a username is unique within its realm. */
  predicate UniqueUsernames(users: seq<User>) {
    forall x, y :: x in users && y in users && x.realmId == y.realmId && x.username == y.username ==> x == y
  }

  /** `getRealmByName`: the realm row carrying `name`, if any. */
  function FindRealm(realms: seq<Realm>, name: string): (r: Option<Realm>)
    ensures r.Some? ==> r.value in realms && r.value.name == name
    ensures r.None? <==> forall m :: m in realms ==> m.name != name
  {
    if |realms| == 0 then None
    else if realms[0].name == name then Some(realms[0])
    else FindRealm(realms[1..], name)
  }

  /**
   * The groups teardown deletes: the realm's top-level groups and their direct
   * subgroups. Deeper descendants are not enumerated.
   */
  predicate RemovedByTeardown(groups: seq<Group>, realmId: Id, g: Group) {
    && g.realmId == realmId
    && (|| g.parentId.None?
        || exists p :: p in groups && p.realmId == realmId && p.parentId.None? && g.parentId == Some(p.id))
  }

  /** Every group of the realm sits at most two levels below the root. */
  predicate ShallowGroups(groups: seq<Group>, realmId: Id) {
    forall g :: g in groups && g.realmId == realmId ==> RemovedByTeardown(groups, realmId, g)
  }

  /**
   * Realm teardown, abstracted to its effect on the modelled tables: the realm row,
   * every role of the realm (realm and client roles) and the realm's groups down to
   * the second level are gone. Users and both user association tables are untouched.
   */
  function Teardown(s: Store, realmId: Id): (r: Store)
    ensures r.users == s.users
    ensures r.roleMappings == s.roleMappings && r.groupMemberships == s.groupMemberships
    ensures forall m :: m in r.realms <==> m in s.realms && m.id != realmId
    ensures forall x :: x in r.roles <==> x in s.roles && x.realmId != realmId
    ensures forall g :: g in r.groups <==> g in s.groups && !RemovedByTeardown(s.groups, realmId, g)
  {
    Store(
      Filter((m: Realm) => m.id != realmId, s.realms),
      Filter((x: Role) => x.realmId != realmId, s.roles),
      Filter((g: Group) => !RemovedByTeardown(s.groups, realmId, g), s.groups),
      s.users,
      s.roleMappings,
      s.groupMemberships)
  }

  /** When every group of the realm is shallow, teardown leaves none of the realm's structure behind. */
  lemma TeardownClearsShallowRealm(s: Store, realmId: Id)
    requires ShallowGroups(s.groups, realmId)
    ensures forall x :: x in Teardown(s, realmId).roles ==> x.realmId != realmId
    ensures forall g :: g in Teardown(s, realmId).groups ==> g.realmId != realmId
  {
  }

  /** A group three levels deep survives teardown. */
  lemma DeepGroupSurvivesTeardown()
    ensures
      var top := Group("g1", "top", None, "r");
      var mid := Group("g2", "mid", Some("g1"), "r");
      var deep := Group("g3", "deep", Some("g2"), "r");
      var s := Store([], [], [top, mid, deep], [], [], []);
      Teardown(s, "r").groups == [deep]
  {
    var top := Group("g1", "top", None, "r");
    var mid := Group("g2", "mid", Some("g1"), "r");
    var deep := Group("g3", "deep", Some("g2"), "r");
    var gs := [top, mid, deep];
    assert RemovedByTeardown(gs, "r", mid) by { assert top in gs; }
    assert !RemovedByTeardown(gs, "r", deep) by {
      forall p | p in gs && p.realmId == "r" && p.parentId.None?
        ensures deep.parentId != Some(p.id)
      {
        assert p == top;
      }
    }
    assert gs[1..] == [mid, deep] && gs[1..][1..] == [deep] && gs[1..][1..][1..] == [];
  }

  /**
   * The opaque rebuild from the realm representation: it creates the realm row and
   * the realm's roles, groups, default users and their association rows.
   */
  datatype Rebuilt = Rebuilt(
    realm: Realm,
    roles: seq<Role>,
    groups: seq<Group>,
    users: seq<User>,
    roleMappings: seq<Link>,
    groupMemberships: seq<Link>)

  function Rebuild(s: Store, b: Rebuilt): Store {
    Store(
      s.realms + [b.realm],
      s.roles + b.roles,
      s.groups + b.groups,
      s.users + b.users,
      s.roleMappings + b.roleMappings,
      s.groupMemberships + b.groupMemberships)
  }
}

=== FILE: seqs.dfy ===
/** Order-preserving filtering of sequences, the shape of every SQL `delete ... where`. */
module Seqs {

  /** The elements of `s` that satisfy `p`, in their original order. */
  function Filter<T(!new)>(p: T -> bool, s: seq<T>): (r: seq<T>)
    ensures |r| <= |s|
    ensures forall x :: x in r <==> x in s && p(x)
    ensures forall x :: multiset(r)[x] == if p(x) then multiset(s)[x] else 0
  {
    if |s| == 0 then []
    else
      assert s == [s[0]] + s[1..];
      if p(s[0]) then [s[0]] + Filter(p, s[1..]) else Filter(p, s[1..])
  }

  /** A non-empty sequence's multiset is its head's plus its tail's. */
  lemma MultisetCons<T>(s: seq<T>)
    requires |s| > 0
    ensures multiset(s) == multiset{s[0]} + multiset(s[1..])
  {
    assert s == [s[0]] + s[1..];
  }
}

=== FILE: snapshot.dfy ===
/**
 * Snapshots of a realm's roles and groups, bucketed by bare name the way
 * `Collectors.groupingBy { it.name }` buckets the query result.
 */
module Snapshot {
  import opened Wrappers
  import opened Schema

  /** What the remap sees of a role or group: its id, its name and its owning client. */
  datatype Ref = Ref(id: Id, name: string, clientId: Option<Id>)

  function RoleRef(x: Role): Ref {
    Ref(x.id, x.name, x.clientId)
  }

  /** Groups have no owning client, so a group's reference never carries one. */
  function GroupRef(g: Group): Ref {
    Ref(g.id, g.name, None)
  }

  /** `select role from RoleEntity role where role.realmId = :realmId`, projected to references. */
  function RealmRoleRefs(roles: seq<Role>, realmId: Id): (r: seq<Ref>)
    ensures forall x :: x in r <==> exists y :: y in roles && y.realmId == realmId && RoleRef(y) == x
  {
    if |roles| == 0 then []
    else
      assert forall y :: y in roles <==> y == roles[0] || y in roles[1..];
      (if roles[0].realmId == realmId then [RoleRef(roles[0])] else []) + RealmRoleRefs(roles[1..], realmId)
  }

  /** `select group from GroupEntity group where group.realm = :realmId`, projected to references. */
  function RealmGroupRefs(groups: seq<Group>, realmId: Id): (r: seq<Ref>)
    ensures forall x :: x in r <==> exists g :: g in groups && g.realmId == realmId && GroupRef(g) == x
  {
    if |groups| == 0 then []
    else
      assert forall g :: g in groups <==> g == groups[0] || g in groups[1..];
      (if groups[0].realmId == realmId then [GroupRef(groups[0])] else []) + RealmGroupRefs(groups[1..], realmId)
  }

  lemma {:induction false} RealmRoleRefsConcat(a: seq<Role>, b: seq<Role>, realmId: Id)
    ensures RealmRoleRefs(a + b, realmId) == RealmRoleRefs(a, realmId) + RealmRoleRefs(b, realmId)
  {
    if |a| > 0 {
      assert (a + b)[0] == a[0] && (a + b)[1..] == a[1..] + b;
      RealmRoleRefsConcat(a[1..], b, realmId);
    } else {
      assert a + b == b;
    }
  }

  lemma {:induction false} RealmGroupRefsConcat(a: seq<Group>, b: seq<Group>, realmId: Id)
    ensures RealmGroupRefs(a + b, realmId) == RealmGroupRefs(a, realmId) + RealmGroupRefs(b, realmId)
  {
    if |a| > 0 {
      assert (a + b)[0] == a[0] && (a + b)[1..] == a[1..] + b;
      RealmGroupRefsConcat(a[1..], b, realmId);
    } else {
      assert a + b == b;
    }
  }

  /** The records of `refs` named `name`, in query order. */
  function Bucket(refs: seq<Ref>, name: string): (r: seq<Ref>)
    ensures forall x :: x in r <==> x in refs && x.name == name
  {
    if |refs| == 0 then []
    else
      assert forall x :: x in refs <==> x == refs[0] || x in refs[1..];
      (if refs[0].name == name then [refs[0]] else []) + Bucket(refs[1..], name)
  }

  function NameSet(refs: seq<Ref>): set<string> {
    set x | x in refs :: x.name
  }

  /** The distinct names of `refs`, each once: an enumeration of the snapshot's keys. */
  function Names(refs: seq<Ref>): (r: seq<string>)
    ensures forall k :: k in r <==> k in NameSet(refs)
    ensures forall i, j :: 0 <= i < j < |r| ==> r[i] != r[j]
  {
    if |refs| == 0 then []
    else
      assert forall x :: x in refs <==> x == refs[0] || x in refs[1..];
      var rest := Names(refs[1..]);
      if refs[0].name in rest then rest else [refs[0].name] + rest
  }

  /** `groupingBy(name)`: one non-empty bucket per name present, holding that name's records in order. */
  function GroupBy(refs: seq<Ref>): (r: map<string, seq<Ref>>)
    ensures forall k :: k in r <==> exists x :: x in refs && x.name == k
    ensures forall k :: k in r ==> |r[k]| > 0
    ensures forall k, x :: k in r && x in r[k] <==> x in refs && x.name == k
    ensures forall k :: k in r ==> r[k] == Bucket(refs, k)
  {
    var m := map k | k in NameSet(refs) :: Bucket(refs, k);
    assert forall k :: k in m ==> |m[k]| > 0 by {
      forall k | k in m ensures |m[k]| > 0 {
        var x :| x in refs && x.name == k;
        assert x in m[k];
      }
    }
    m
  }

  /** The snapshot is empty exactly when the query returned nothing. */
  lemma GroupByEmpty(refs: seq<Ref>)
    ensures |GroupBy(refs)| == 0 <==> |refs| == 0
  {
    if |refs| > 0 {
      assert refs[0].name in GroupBy(refs);
    }
  }

  /** `getRoles(realmId)`. */
  function SnapshotRoles(s: Store, realmId: Id): (r: map<string, seq<Ref>>)
    ensures forall k :: k in r <==> exists y :: y in s.roles && y.realmId == realmId && y.name == k
    ensures forall k, x :: k in r && x in r[k] ==> x.name == k
    ensures forall y :: y in s.roles && y.realmId == realmId ==> y.name in r && RoleRef(y) in r[y.name]
    ensures forall k, x :: k in r && x in r[k] ==> exists y :: y in s.roles && y.realmId == realmId && y.name == k && RoleRef(y) == x
  {
    var refs := RealmRoleRefs(s.roles, realmId);
    assert forall y :: y in s.roles && y.realmId == realmId ==> RoleRef(y) in refs;
    GroupBy(refs)
  }

  /** `getGroups(realmId)`. */
  function SnapshotGroups(s: Store, realmId: Id): (r: map<string, seq<Ref>>)
    ensures forall k :: k in r <==> exists g :: g in s.groups && g.realmId == realmId && g.name == k
    ensures forall k, x :: k in r && x in r[k] ==> x.name == k && x.clientId.None?
    ensures forall g :: g in s.groups && g.realmId == realmId ==> g.name in r && GroupRef(g) in r[g.name]
    ensures forall k, x :: k in r && x in r[k] ==> exists g :: g in s.groups && g.realmId == realmId && g.name == k && GroupRef(g) == x
  {
    var refs := RealmGroupRefs(s.groups, realmId);
    assert forall g :: g in s.groups && g.realmId == realmId ==> GroupRef(g) in refs;
    GroupBy(refs)
  }
}

=== FILE: sweep.dfy ===
/**
 * Orphan sweep: `delete from user_role_mapping where role_id not in (select id from
 * keycloak_role)` and its twin for `user_group_membership`.
 */
module Sweep {
  import opened Schema

  /** The rows whose target is one of `ids`; every other row is deleted. */
  function SweepOrphans(rows: seq<Link>, ids: set<Id>): (r: seq<Link>)
    ensures forall l :: l in r ==> l.targetId in ids
    ensures forall l :: multiset(r)[l] == if l.targetId in ids then multiset(rows)[l] else 0
  {
    if |rows| == 0 then []
    else
      assert rows == [rows[0]] + rows[1..];
      (if rows[0].targetId in ids then [rows[0]] else []) + SweepOrphans(rows[1..], ids)
  }

  /** A table without orphans is left exactly as it is. */
  lemma {:induction false} SweepKeepsClean(rows: seq<Link>, ids: set<Id>)
    requires forall l :: l in rows ==> l.targetId in ids
    ensures SweepOrphans(rows, ids) == rows
  {
    if |rows| > 0 {
      assert rows[0] in rows;
      assert forall l :: l in rows[1..] ==> l in rows;
      SweepKeepsClean(rows[1..], ids);
    }
  }

  /** Sweeping twice is sweeping once. */
  lemma SweepIdempotent(rows: seq<Link>, ids: set<Id>)
    ensures SweepOrphans(SweepOrphans(rows, ids), ids) == SweepOrphans(rows, ids)
  {
    SweepKeepsClean(SweepOrphans(rows, ids), ids);
  }

  /** A user mapped to a role that the new configuration no longer contains loses that mapping. */
  lemma SweepDropsRemovedRole()
    ensures SweepOrphans([Link("u10", "r1"), Link("u10", "r2")], {"r2"}) == [Link("u10", "r2")]
  {
    var rows := [Link("u10", "r1"), Link("u10", "r2")];
    assert rows[1..] == [Link("u10", "r2")] && rows[1..][1..] == [];
  }
}

=== FILE: user_import.dfy ===
/**
 * Incremental user import (`importUsersInternal`, `parseRealmUsers`): each shard file
 * `<realm>-users-<digits>.json` is checked against the realm and its declared users
 * are created unless the realm already has a user of that username.
 */
module UserImport {
  import opened Wrappers
  import opened Schema

  predicate IsDigit(c: char) {
    '0' <= c <= '9'
  }

  /** The shard name pattern `<realm>-users-[0-9]+\.json`, the realm name read literally. */
  predicate IsUserShardName(fileName: string, realmName: string) {
    var prefix := realmName + "-users-";
    && |prefix| + 5 < |fileName|
    && fileName[..|prefix|] == prefix
    && fileName[|fileName| - 5..] == ".json"
    && forall i :: |prefix| <= i < |fileName| - 5 ==> IsDigit(fileName[i])
  }

  /** A shard name is the realm name, `-users-`, a non-empty run of digits and `.json`, and nothing else. */
  lemma ShardNameShape(realmName: string, digits: string)
    requires |digits| > 0 && forall i :: 0 <= i < |digits| ==> IsDigit(digits[i])
    ensures IsUserShardName(realmName + "-users-" + digits + ".json", realmName)
    ensures !IsUserShardName(realmName + "-users-" + digits + ".json.bak", realmName)
    ensures !IsUserShardName(realmName + "-users-.json", realmName)
  {
    var prefix := realmName + "-users-";
    var f := prefix + digits + ".json";
    assert f[..|prefix|] == prefix;
    assert f[|f| - 5..] == ".json";
    forall i | |prefix| <= i < |f| - 5 ensures IsDigit(f[i]) {
      assert f[i] == digits[i - |prefix|];
    }
    var g := prefix + digits + ".json.bak";
    assert g[|g| - 5] == 'n';
  }

  /** The part of a user representation the import reads. */
  datatype UserRep = UserRep(id: Id, username: string)

  /**
   * A top-level field of a shard file, in file order: `realm` with its string value,
   * `users` with its array of user objects, or a field of any other name.
   */
  datatype Field = RealmField(value: string) | UsersField(users: seq<UserRep>) | OtherField(key: string)

  datatype ShardFile = ShardFile(name: string, fields: seq<Field>)

  datatype ImportError =
    | RealmMismatch(expected: string, found: string)
    | RealmMissing(realmName: string)
    | DuplicateUsername(realmName: string, username: string)

  /** The first `i` fields are all `realm` fields naming `realmName`: the parser reads past each of them. */
  predicate Leading(fields: seq<Field>, i: int, realmName: string) {
    0 <= i <= |fields| && forall j :: 0 <= j < i ==> fields[j] == RealmField(realmName)
  }

  predicate Mismatch(f: Field, realmName: string) {
    f.RealmField? && f.value != realmName
  }

  lemma LeadingShift(fields: seq<Field>, realmName: string)
    requires |fields| > 0 && fields[0] == RealmField(realmName)
    ensures forall i :: 0 <= i ==> (Leading(fields[1..], i, realmName) <==> Leading(fields, i + 1, realmName))
  {
    forall i | 0 <= i ensures Leading(fields[1..], i, realmName) <==> Leading(fields, i + 1, realmName) {
      if Leading(fields, i + 1, realmName) {
        forall j | 0 <= j < i ensures fields[1..][j] == RealmField(realmName) {
          assert fields[1..][j] == fields[j + 1];
        }
      }
      if Leading(fields[1..], i, realmName) {
        forall j | 0 <= j < i + 1 ensures fields[j] == RealmField(realmName) {
          if j > 0 { assert fields[j] == fields[1..][j - 1]; }
        }
      }
    }
  }

  /**
   * `parseRealmUsers`, which reads the fields in order: it reads past each `realm` field
   * naming the realm and fails at one naming another realm; the first `users` field gives
   * the users and ends the reading, and so does any other field, which yields no users.
   * A `realm` field after `users` or after an unknown field is therefore never checked.
   */
  function ParseRealmUsers(fields: seq<Field>, realmName: string): (r: Result<seq<UserRep>, ImportError>)
    ensures r.Failure? <==> exists i :: Leading(fields, i, realmName) && i < |fields| && Mismatch(fields[i], realmName)
    ensures r.Failure? ==> r.error.RealmMismatch? && r.error.expected == realmName && r.error.found != realmName
    ensures r.Failure? ==>
      exists i :: Leading(fields, i, realmName) && i < |fields| && fields[i] == RealmField(r.error.found)
    ensures forall i :: Leading(fields, i, realmName) && i < |fields| && fields[i].UsersField? ==> r == Success(fields[i].users)
    ensures r.Success? && |r.value| > 0 ==>
      exists i :: Leading(fields, i, realmName) && i < |fields| && fields[i] == UsersField(r.value)
    decreases |fields|
  {
    if |fields| == 0 then Success([])
    else
      assert forall i :: Leading(fields, i, realmName) && i > 0 ==> fields[0] == RealmField(realmName);
      assert Leading(fields, 0, realmName);
      match fields[0]
      case RealmField(found) =>
        if found == realmName then
          var r := ParseRealmUsers(fields[1..], realmName);
          LeadingShift(fields, realmName);
          assert forall i :: 0 <= i < |fields[1..]| ==> fields[1..][i] == fields[i + 1];
          r
        else Failure(RealmMismatch(realmName, found))
      case UsersField(users) => Success(users)
      case OtherField(_) => Success([])
  }

  /** A `realm` field placed after the `users` array is never read, so users go to the expected realm. */
  lemma RealmAfterUsersUnchecked()
    ensures ParseRealmUsers([UsersField([UserRep("7", "alice")]), RealmField("beta")], "acme") == Success([UserRep("7", "alice")])
  {
  }

  /** An unknown field ahead of `users` ends the reading: no users and no realm check. */
  lemma UnknownFieldEndsReading()
    ensures ParseRealmUsers([OtherField("id"), RealmField("beta"), UsersField([UserRep("7", "alice")])], "acme") == Success([])
  {
  }

  predicate HasUsername(users: seq<User>, realmId: Id, username: string) {
    exists u :: u in users && u.realmId == realmId && u.username == username
  }

  /** The users created for `reps`: those whose username the realm does not already hold. */
  function NewUsers(reps: seq<UserRep>, users: seq<User>, realmId: Id): (r: seq<User>)
    ensures forall u :: u in r <==>
      exists rep :: rep in reps && !HasUsername(users, realmId, rep.username) && u == User(rep.id, rep.username, realmId)
  {
    if |reps| == 0 then []
    else
      assert forall rep :: rep in reps <==> rep == reps[0] || rep in reps[1..];
      (if HasUsername(users, realmId, reps[0].username) then [] else [User(reps[0].id, reps[0].username, realmId)])
      + NewUsers(reps[1..], users, realmId)
  }

  /** Two of `users` share a username. */
  predicate RepeatsUsername(users: seq<User>) {
    exists i, j :: 0 <= i < j < |users| && users[i].username == users[j].username
  }

  /** Two of `users` carry the username `n`. */
  predicate SharedBy(users: seq<User>, n: string) {
    exists i, j :: 0 <= i < j < |users| && users[i].username == n && users[j].username == n
  }

  /** A username that two of `users` share, if any. */
  function RepeatedUsername(users: seq<User>): (r: Option<string>)
    ensures r.Some? <==> RepeatsUsername(users)
    ensures r.Some? ==> SharedBy(users, r.value)
    decreases |users|
  {
    if |users| == 0 then None
    else if exists j :: 0 < j < |users| && users[j].username == users[0].username then Some(users[0].username)
    else
      var r := RepeatedUsername(users[1..]);
      assert forall i :: 0 <= i < |users[1..]| ==> users[1..][i] == users[i + 1];
      assert RepeatsUsername(users[1..]) <==> RepeatsUsername(users) by {
        if RepeatsUsername(users[1..]) {
          var i, j :| 0 <= i < j < |users[1..]| && users[1..][i].username == users[1..][j].username;
          assert users[i + 1].username == users[j + 1].username;
        }
        if RepeatsUsername(users) {
          var i, j :| 0 <= i < j < |users| && users[i].username == users[j].username;
          assert i > 0 && users[1..][i - 1].username == users[1..][j - 1].username;
        }
      }
      assert r.Some? ==> SharedBy(users, r.value) by {
        if r.Some? {
          var i, j :| 0 <= i < j < |users[1..]| && users[1..][i].username == r.value && users[1..][j].username == r.value;
          assert users[i + 1].username == r.value && users[j + 1].username == r.value;
        }
      }
      r
  }

  /** Two of `reps` carry the username `n`. */
  predicate ListsTwice(reps: seq<UserRep>, n: string) {
    exists i, j :: 0 <= i < j < |reps| && reps[i].username == n && reps[j].username == n
  }

  /** Two of `reps` share a username. */
  predicate ListsUsernameTwice(reps: seq<UserRep>) {
    exists i, j :: 0 <= i < j < |reps| && reps[i].username == reps[j].username
  }

  /** Two users sharing `n` in a list with at most one user ahead of `tail`: either both are in `tail`, or the head and one of `tail`. */
  lemma SharedSplit(head: seq<User>, tail: seq<User>, n: string)
    requires |head| <= 1 && SharedBy(head + tail, n)
    ensures SharedBy(tail, n) || (|head| == 1 && head[0].username == n && exists u :: u in tail && u.username == n)
  {
    var xs := head + tail;
    var i, j :| 0 <= i < j < |xs| && xs[i].username == n && xs[j].username == n;
    if i < |head| {
      assert xs[j] == tail[j - |head|];
    } else {
      assert xs[i] == tail[i - |head|] && xs[j] == tail[j - |head|];
    }
  }

  /** Two of `reps[1..]` carrying `n` are two of `reps`. */
  lemma ListsTwiceTail(reps: seq<UserRep>, n: string)
    requires |reps| > 0 && ListsTwice(reps[1..], n)
    ensures ListsTwice(reps, n)
  {
    var i, j :| 0 <= i < j < |reps[1..]| && reps[1..][i].username == n && reps[1..][j].username == n;
    assert reps[i + 1].username == n && reps[j + 1].username == n;
  }

  /** Users to create can share a username only when the shard lists it twice. */
  lemma {:induction false} NewUsersShared(reps: seq<UserRep>, users: seq<User>, realmId: Id, n: string)
    ensures SharedBy(NewUsers(reps, users, realmId), n) ==> ListsTwice(reps, n)
    decreases |reps|
  {
    var added := NewUsers(reps, users, realmId);
    if |reps| == 0 || !SharedBy(added, n) { return; }
    var tail := NewUsers(reps[1..], users, realmId);
    var head := if HasUsername(users, realmId, reps[0].username) then [] else [User(reps[0].id, reps[0].username, realmId)];
    assert added == head + tail;
    SharedSplit(head, tail, n);
    if SharedBy(tail, n) {
      NewUsersShared(reps[1..], users, realmId, n);
      ListsTwiceTail(reps, n);
    } else {
      var u :| u in tail && u.username == n;
      var rep :| rep in reps[1..] && !HasUsername(users, realmId, rep.username) && u == User(rep.id, rep.username, realmId);
      var k :| 0 <= k < |reps[1..]| && reps[1..][k] == rep;
      assert reps[0].username == n && reps[k + 1].username == n;
    }
  }

  /** Adding users of one realm, none holding a username the realm had and no two alike, keeps usernames unique. */
  lemma AddedKeepUnique(users: seq<User>, added: seq<User>, realmId: Id)
    requires UniqueUsernames(users)
    requires forall u :: u in added ==> u.realmId == realmId && !HasUsername(users, realmId, u.username)
    requires !RepeatsUsername(added)
    ensures UniqueUsernames(users + added)
  {
    forall x, y | x in users + added && y in users + added && x.realmId == y.realmId && x.username == y.username
      ensures x == y
    {
      if x in users { assert HasUsername(users, x.realmId, x.username); }
      if y in users { assert HasUsername(users, y.realmId, y.username); }
      if x in added && y in added {
        var i :| 0 <= i < |added| && added[i] == x;
        var j :| 0 <= j < |added| && added[j] == y;
        assert i == j;
      }
    }
  }

  /**
   * One shard's transaction: look the realm up (only once a user needs checking), keep
   * the users whose username the realm lacks, and create them. Two of them sharing a
   * username break the store's (realm, username) key, and the shard rolls back.
   */
  function ImportShard(s: Store, realmName: string, reps: seq<UserRep>): (r: Result<Store, ImportError>)
    ensures |reps| == 0 ==> r == Success(s)
    ensures r.Failure? <==>
      && |reps| > 0
      && (FindRealm(s.realms, realmName).None? || RepeatsUsername(NewUsers(reps, s.users, FindRealm(s.realms, realmName).value.id)))
    ensures r.Failure? && FindRealm(s.realms, realmName).Some? ==>
      r.error.DuplicateUsername? && r.error.realmName == realmName && ListsTwice(reps, r.error.username)
    ensures r.Success? && UniqueUsernames(s.users) ==> UniqueUsernames(r.value.users)
    ensures r.Success? ==> |s.users| <= |r.value.users| && r.value.users[..|s.users|] == s.users
    ensures r.Success? && |reps| > 0 ==>
      r.value.users[|s.users|..] == NewUsers(reps, s.users, FindRealm(s.realms, realmName).value.id)
    ensures r.Success? ==> r.value.realms == s.realms && r.value.roles == s.roles && r.value.groups == s.groups
    ensures r.Success? ==> r.value.roleMappings == s.roleMappings && r.value.groupMemberships == s.groupMemberships
  {
    if |reps| == 0 then Success(s)
    else match FindRealm(s.realms, realmName)
      case None => Failure(RealmMissing(realmName))
      case Some(realm) =>
        var added := NewUsers(reps, s.users, realm.id);
        match RepeatedUsername(added)
        case Some(username) =>
          NewUsersShared(reps, s.users, realm.id, username);
          Failure(DuplicateUsername(realmName, username))
        case None =>
          var users' := s.users + added;
          assert users'[..|s.users|] == s.users && users'[|s.users|..] == added;
          if UniqueUsernames(s.users) then AddedKeepUnique(s.users, added, realm.id); Success(s.(users := users'))
          else Success(s.(users := users'))
  }

  /** The outcome of a user import: the store as committed, and the error that stopped it, if any. */
  datatype Outcome = Outcome(store: Store, error: Option<ImportError>)

  /** `rep` is a user that the matching shard `f` hands over after its realm check. */
  predicate Reads(f: ShardFile, realmName: string, rep: UserRep) {
    && IsUserShardName(f.name, realmName)
    && ParseRealmUsers(f.fields, realmName).Success?
    && rep in ParseRealmUsers(f.fields, realmName).value
  }

  /** A user that some matching, well-formed shard declares. */
  ghost predicate Declared(files: seq<ShardFile>, realmName: string, u: User) {
    exists f, rep :: f in files && Reads(f, realmName, rep) && u.id == rep.id && u.username == rep.username
  }

  /**
   * A user the import may add to a store holding `users`: it belongs to the realm named
   * `realmName`, no user of that realm had its username, and a matching shard declares it.
   */
  ghost predicate Admissible(users: seq<User>, realms: seq<Realm>, realmName: string, files: seq<ShardFile>, u: User) {
    && FindRealm(realms, realmName).Some?
    && u.realmId == FindRealm(realms, realmName).value.id
    && !HasUsername(users, u.realmId, u.username)
    && Declared(files, realmName, u)
  }

  /**
   * A matching shard whose import raises whatever the store holds: its realm check
   * fails, or it has users and the realm does not exist.
   */
  predicate ShardFails(realms: seq<Realm>, realmName: string, f: ShardFile) {
    && IsUserShardName(f.name, realmName)
    && (|| ParseRealmUsers(f.fields, realmName).Failure?
        || (|ParseRealmUsers(f.fields, realmName).value| > 0 && FindRealm(realms, realmName).None?))
  }

  /** A matching, well-formed shard that lists some username twice: the one case in which its import depends on the store's users. */
  predicate RepeatsIn(f: ShardFile, realmName: string) {
    && IsUserShardName(f.name, realmName)
    && ParseRealmUsers(f.fields, realmName).Success?
    && ListsUsernameTwice(ParseRealmUsers(f.fields, realmName).value)
  }

  /** After a complete import every user some shard hands over has a namesake in the realm. */
  ghost predicate Covered(users: seq<User>, realms: seq<Realm>, realmName: string, files: seq<ShardFile>) {
    forall f, rep :: f in files && Reads(f, realmName, rep) ==>
      FindRealm(realms, realmName).Some? && HasUsername(users, FindRealm(realms, realmName).value.id, rep.username)
  }

  /**
   * `importUsersInternal` over the listed files in order. Shards committed before a
   * failure stay committed; the failing shard and those after it create nothing. The
   * import raises exactly when some matching shard fails, and otherwise every user a
   * matching shard hands over exists in the realm afterwards.
   */
  function ImportUsers(s: Store, realmName: string, files: seq<ShardFile>): (r: Outcome)
    ensures r.store.realms == s.realms && r.store.roles == s.roles && r.store.groups == s.groups
    ensures r.store.roleMappings == s.roleMappings && r.store.groupMemberships == s.groupMemberships
    ensures |s.users| <= |r.store.users| && r.store.users[..|s.users|] == s.users
    ensures forall u :: u in r.store.users[|s.users|..] ==> Admissible(s.users, s.realms, realmName, files, u)
    ensures (exists f :: f in files && ShardFails(s.realms, realmName, f)) ==> r.error.Some?
    ensures r.error.Some? ==> exists f :: f in files && (ShardFails(s.realms, realmName, f) || RepeatsIn(f, realmName))
    ensures r.error.None? ==> Covered(r.store.users, s.realms, realmName, files)
    ensures UniqueUsernames(s.users) ==> UniqueUsernames(r.store.users)
    decreases |files|
  {
    if |files| == 0 then Outcome(s, None)
    else
      var f := files[0];
      assert f in files;
      assert forall g :: g in files <==> g == f || g in files[1..];
      if !IsUserShardName(f.name, realmName) then
        var r := ImportUsers(s, realmName, files[1..]);
        DeclaredMonotone(files, realmName);
        r
      else match ParseRealmUsers(f.fields, realmName)
        case Failure(e) => Outcome(s, Some(e))
        case Success(reps) =>
          match ImportShard(s, realmName, reps)
          case Failure(e) =>
            assert FindRealm(s.realms, realmName).Some? ==> ListsTwice(reps, e.username);
            Outcome(s, Some(e))
          case Success(s1) =>
            var r := ImportUsers(s1, realmName, files[1..]);
            ImportUsersStep(s, s1, r.store, realmName, files, reps);
            HeadShardCovered(s, s1, r.store, r.error.None?, realmName, files, reps);
            r
  }

  lemma DeclaredMonotone(files: seq<ShardFile>, realmName: string)
    requires |files| > 0
    ensures forall u :: Declared(files[1..], realmName, u) ==> Declared(files, realmName, u)
  {
    assert forall g :: g in files[1..] ==> g in files;
  }

  lemma PrefixKeepsUsernames(users: seq<User>, more: seq<User>, realmId: Id, username: string)
    requires |users| <= |more| && more[..|users|] == users
    requires HasUsername(users, realmId, username)
    ensures HasUsername(more, realmId, username)
  {
    var u :| u in users && u.realmId == realmId && u.username == username;
    var j :| 0 <= j < |users| && users[j] == u;
    assert more[j] == u;
  }

  /** Once the head shard is imported and the rest complete, the head shard's users are covered too. */
  lemma HeadShardCovered(s: Store, s1: Store, s2: Store, complete: bool, realmName: string, files: seq<ShardFile>, reps: seq<UserRep>)
    requires |files| > 0 && IsUserShardName(files[0].name, realmName)
    requires ParseRealmUsers(files[0].fields, realmName) == Success(reps)
    requires ImportShard(s, realmName, reps) == Success(s1)
    requires s1.realms == s.realms
    requires |s1.users| <= |s2.users| && s2.users[..|s1.users|] == s1.users
    requires complete ==> Covered(s2.users, s1.realms, realmName, files[1..])
    ensures complete ==> Covered(s2.users, s.realms, realmName, files)
  {
    if !complete { return; }
    forall f, rep | f in files && Reads(f, realmName, rep)
      ensures FindRealm(s.realms, realmName).Some? && HasUsername(s2.users, FindRealm(s.realms, realmName).value.id, rep.username)
    {
      if f != files[0] {
        assert f in files[1..];
      } else {
        var realmId := FindRealm(s.realms, realmName).value.id;
        if HasUsername(s.users, realmId, rep.username) {
          PrefixKeepsUsernames(s.users, s1.users, realmId, rep.username);
        } else {
          var u := User(rep.id, rep.username, realmId);
          assert u in NewUsers(reps, s.users, realmId);
          assert s1.users == s.users + s1.users[|s.users|..];
          assert u in s1.users;
          assert HasUsername(s1.users, realmId, rep.username);
        }
        PrefixKeepsUsernames(s1.users, s2.users, realmId, rep.username);
      }
    }
  }

  lemma FirstShardAdmissible(s: Store, s1: Store, realmName: string, files: seq<ShardFile>, reps: seq<UserRep>, u: User)
    requires |files| > 0 && IsUserShardName(files[0].name, realmName)
    requires ParseRealmUsers(files[0].fields, realmName) == Success(reps)
    requires ImportShard(s, realmName, reps) == Success(s1)
    requires u in s1.users[|s.users|..]
    ensures Admissible(s.users, s.realms, realmName, files, u)
  {
    var realm := FindRealm(s.realms, realmName).value;
    assert s1.users[|s.users|..] == NewUsers(reps, s.users, realm.id);
    var rep :| rep in reps && !HasUsername(s.users, realm.id, rep.username) && u == User(rep.id, rep.username, realm.id);
    assert files[0] in files && Reads(files[0], realmName, rep);
  }

  lemma LaterShardAdmissible(s: Store, s1: Store, realmName: string, files: seq<ShardFile>, u: User)
    requires |files| > 0 && s1.realms == s.realms
    requires |s.users| <= |s1.users| && s1.users[..|s.users|] == s.users
    requires Admissible(s1.users, s1.realms, realmName, files[1..], u)
    ensures Admissible(s.users, s.realms, realmName, files, u)
  {
    forall x | x in s.users ensures x in s1.users {
      var j :| 0 <= j < |s.users| && s.users[j] == x;
      assert s1.users[j] == x;
    }
    DeclaredMonotone(files, realmName);
  }

  /** Chaining one shard's additions with the rest's keeps the prefix and admissibility. */
  lemma ImportUsersStep(s: Store, s1: Store, s2: Store, realmName: string, files: seq<ShardFile>, reps: seq<UserRep>)
    requires |files| > 0 && IsUserShardName(files[0].name, realmName)
    requires ParseRealmUsers(files[0].fields, realmName) == Success(reps)
    requires ImportShard(s, realmName, reps) == Success(s1)
    requires s1.realms == s.realms
    requires |s1.users| <= |s2.users| && s2.users[..|s1.users|] == s1.users
    requires forall u :: u in s2.users[|s1.users|..] ==> Admissible(s1.users, s1.realms, realmName, files[1..], u)
    ensures |s.users| <= |s2.users| && s2.users[..|s.users|] == s.users
    ensures forall u :: u in s2.users[|s.users|..] ==> Admissible(s.users, s.realms, realmName, files, u)
  {
    var n := |s.users|;
    assert s2.users[..n] == s1.users[..n] == s.users;
    forall u | u in s2.users[n..] ensures Admissible(s.users, s.realms, realmName, files, u) {
      AddedByOneStep(s.users, s1.users, s2.users, u);
      if u in s1.users[n..] {
        FirstShardAdmissible(s, s1, realmName, files, reps, u);
      } else {
        LaterShardAdmissible(s, s1, realmName, files, u);
      }
    }
  }

  /** A user appended across two steps was appended by the first or by the second. */
  lemma AddedByOneStep(users: seq<User>, users1: seq<User>, users2: seq<User>, u: User)
    requires |users| <= |users1| <= |users2| && users2[..|users1|] == users1
    requires u in users2[|users|..]
    ensures u in users1[|users|..] || u in users2[|users1|..]
  {
    var n, n1 := |users|, |users1|;
    var i :| 0 <= i < |users2[n..]| && users2[n..][i] == u;
    if n + i < n1 {
      assert users1[n..][i] == u;
    } else {
      assert users2[n1..][n + i - n1] == u;
    }
  }

  /** A shard that opens with a `realm` field naming another realm fails before any of its users, or any later shard's, is created. */
  lemma MismatchFailsFast(s: Store, realmName: string, f: ShardFile, rest: seq<ShardFile>)
    requires IsUserShardName(f.name, realmName)
    requires |f.fields| > 0 && Mismatch(f.fields[0], realmName)
    ensures ImportUsers(s, realmName, [f] + rest) == Outcome(s, Some(RealmMismatch(realmName, f.fields[0].value)))
  {
    assert ([f] + rest)[0] == f;
  }

  /**
   * A single well-formed shard for an existing realm creates exactly the declared users
   * whose username the realm lacks, after all existing users, which stay as they were;
   * it raises instead, creating nothing, when two of those users share a username.
   */
  lemma SingleShardCreatesMissingUsers(s: Store, realmName: string, f: ShardFile)
    requires IsUserShardName(f.name, realmName) && ParseRealmUsers(f.fields, realmName).Success?
    requires FindRealm(s.realms, realmName).Some?
    ensures var r := ImportUsers(s, realmName, [f]);
      var added := NewUsers(ParseRealmUsers(f.fields, realmName).value, s.users, FindRealm(s.realms, realmName).value.id);
      && (r.error.None? <==> !RepeatsUsername(added))
      && (r.error.None? ==> r.store.users == s.users + added)
      && (r.error.Some? ==> r.store == s)
  {
    var files := [f];
    assert files[0] == f && files[1..] == [];
    var reps := ParseRealmUsers(f.fields, realmName).value;
    if |reps| > 0 {
      if ImportShard(s, realmName, reps).Success? {
        var s1 := ImportShard(s, realmName, reps).value;
        assert s1.users == s.users + s1.users[|s.users|..];
      }
    } else {
      assert NewUsers(reps, s.users, FindRealm(s.realms, realmName).value.id) == [];
    }
  }
}

=== FILE: wrappers.dfy ===
/** Failure-compatible wrappers used throughout the model. */
module Wrappers {

  /** A value that may be absent: a nullable column or a query that found nothing. */
  datatype Option<+T> = None | Some(value: T)

  /** The outcome of a step that can fail with an error of type E. */
  datatype Result<+T, +E> = Success(value: T) | Failure(error: E)
}
